=== FILE: README.md ===
# LeetCode contest solved-status scripts, modelled in Dafny

Three browser-console scripts report which questions of LeetCode contests the signed-in user
has solved:

- `scrap-contest.js` reads the contest cards of the contest list page and fetches each
  contest's question list from the contest-info API. It asks the GraphQL `questionData`
  query for each question's status, then prints one report per contest and a flat table of
  all problems.
- `scrap-contest-update-badge.js` does the same fan-out, but only counts the solved
  questions. It writes `solved / total` into the card's badge span.
- `contest-question-status.js` (`checkContestSolved`) takes one contest, given as a slug, a
  `/contest/<slug>/` path or a full URL. It queries its questions one after another.

The model keeps the data processing and abstracts the browser away:

- Fetches become functions from a slug to a reply.
- A card becomes its `href`, heading, text and span texts.
- The URL parser becomes a function from the input to a pathname or an error.

Modules:

- `Wrappers`: `Option` and `Result`.
- `Text`: JavaScript `trim` with the ECMAScript whitespace set, ASCII lower-casing, and
  decimal rendering of numbers.
- `Seqs`: order-preserving filter-map, `find` and `filter(...).length`.
- `WorkerPool`: the `mapLimit` concurrency limiter as a state machine. Its runners share one
  cursor, and a nondeterministic choice picks the runner that settles next. `MapLimit` runs it
  to completion and proves that every interleaving gives the same output.
- `ContestCards`: the href matcher `^/contest/([^/]+)/?$`, the card name, and the badge
  recogniser `^\s*\d+\s*\/\s*\d+\s*$`.
- `ContestApi`: extracts the question list from the contest-info JSON. JSON entries are maps
  from key to optional string. The scrap scripts read three synonyms per field;
  `checkContestSolved` reads only `title`/`title_slug`.
- `Endpoints`: the awaited fetch, which either throws or yields the JSON. It also holds the
  `solved` derivation and the problem URL.
- `ContestInput`: the contest-slug normaliser of `checkContestSolved`.
- `SolvedReport`, `BadgeReport`, `ContestCheck`: the three scripts end to end.
  `BadgeReport` takes a counting rule: `AsWritten` is the script itself, and `Intended`
  is the same run with the corrected solved count described under Findings.

## Model

| member | source | states |
|---|---|---|
| WorkerPool.Catch | scrap-contest.js:34-38 | a stored slot is the worker's value when it fulfilled, and the `{__error}` sentinel carrying the rendered error `String(e)` exactly when it threw |
| WorkerPool.Start | scrap-contest.js:27-30 | `min(limit, n)` runners are created, runner `k` holds index `k`, the cursor stands at `min(limit, n)`, `out` has `n` holes; no items gives no runners |
| WorkerPool.Step | scrap-contest.js:31-38 | a settling runner stores its own item's outcome (value or error sentinel) at its own index only, advances the shared cursor by one, and keeps claiming after a throw; it stops only when its claim is past the end |
| WorkerPool.StartInv | scrap-contest.js:27-30 | the pool invariant holds once the runners are created |
| WorkerPool.StepBusyClaims | scrap-contest.js:31-33 | after a settlement, busy runners still hold distinct, claimed and unfilled indices: no index is claimed twice |
| WorkerPool.StepCoverage | scrap-contest.js:31-35 | after a settlement, every index below the cursor is filled or in flight, nothing past it is filled, and a runner has stopped only once the cursor passed the end |
| WorkerPool.StepCompletion | scrap-contest.js:34-38 | after a settlement, the completion order lists each filled slot exactly once and, with the in-flight runners, accounts for every claimed index |
| WorkerPool.StepSerial | scrap-contest.js:30-35 | with one runner, results are stored strictly in index order |
| WorkerPool.StepMeasure | scrap-contest.js:31-33 | each settlement lowers the unclaimed-plus-in-flight count by one, so the runners finish |
| WorkerPool.StepPreservesInv | scrap-contest.js:31-38 | a settlement of any busy runner keeps the whole invariant |
| WorkerPool.FinalOutput | scrap-contest.js:42-43 | once no runner is in flight, `out` has no holes, slot `i` holds the outcome for `items[i]`, and every index completed once |
| WorkerPool.MapLimit | scrap-contest.js:26-44 | for any interleaving: the result has `items.length` slots, slot `i` is `worker(items[i], i)` or its error sentinel, every index is processed exactly once, at most `min(limit, n)` workers are in flight (reached at the start), and `limit = 1` processes in index order |
| ContestCards.MatchContestHref | scrap-contest.js:68-69 | an accepted href is `/contest/<slug>` or `/contest/<slug>/`, with a non-empty slug without `/` |
| ContestCards.ContestHrefRoundTrip | scrap-contest.js:68-69 | every non-empty slash-free slug is accepted from both href forms and recovered exactly |
| ContestCards.CardName | scrap-contest.js:71-73 | the name is the trimmed heading when that is non-empty, else at most 80 characters of the trimmed card text |
| ContestCards.CardContest | scrap-contest.js:64-83 | a card yields a contest exactly when its href (missing read as `""`) matches, with the matched slug and the href |
| ContestCards.ScrapeContests | scrap-contest.js:64-84 | every kept contest has a non-empty slash-free slug that its href matches; there are at most as many contests as cards |
| ContestCards.ScrapeContestsByCard | scrap-contest.js:64-84 | contest `k` comes from the `k`-th matching card, card order is kept, and every matching card yields a contest |
| ContestCards.BadgePatternComplete | scrap-contest-update-badge.js:76 | every text of the form whitespace, digits, whitespace, `/`, whitespace, digits, whitespace is accepted by the badge recogniser |
| ContestCards.BadgePatternSound | scrap-contest-update-badge.js:76 | every text the recogniser accepts has that form, with both digit runs non-empty |
| ContestCards.BadgePatternExact | scrap-contest-update-badge.js:76 | the recogniser accepts a text exactly when it has the badge form, whitespace, digits, whitespace, `/`, whitespace, digits, whitespace |
| ContestCards.FindBadge | scrap-contest-update-badge.js:75-77 | the chosen span is the first whose trimmed text is recognised; none when no span is |
| ContestCards.CardBadgeContest | scrap-contest-update-badge.js:63-90 | a card yields a contest exactly when scrap-contest.js keeps it, with its first recognised badge span or none |
| ContestCards.BadgeScrapeAgrees | scrap-contest-update-badge.js:63-90 | the badge script keeps the same contests as scrap-contest.js, in the same order |
| ContestApi.FirstTruthy | scrap-contest.js:104-105 | `a \|\| b \|\| c` yields nothing exactly when every synonym is missing, null or empty; otherwise it yields the first non-empty synonym's value |
| ContestApi.Build | scrap-contest.js:103-109 | an entry is kept exactly when a slug synonym is non-empty; the kept question's slug is the first truthy slug synonym and its title the first truthy title synonym, or `(unknown)` when none is set |
| ContestApi.Extract | scrap-contest.js:101-109 | a body without a `questions` array gives no questions; otherwise at most one question per entry, each built from one of the entries, with a non-empty slug and title |
| ContestApi.ExtractByEntry | scrap-contest.js:101-109 | question `k` is built from the `k`-th entry with a slug, entry order is kept, and no entry with a slug is dropped |
| ContestApi.CheckSchemeReadsTwoKeys | contest-question-status.js:44-50 | the extraction of `checkContestSolved` depends on the `title` and `title_slug` keys only |
| ContestApi.CheckSchemeNarrower | contest-question-status.js:44-50 | an entry kept by `checkContestSolved` is kept by the scrap scripts with the same slug |
| ContestApi.SynonymOnlyInContestScheme | scrap-contest.js:105 | an entry carrying only `titleSlug` is kept by the scrap scripts, with title `(unknown)`, and dropped by `checkContestSolved` |
| Endpoints.Await | scrap-contest.js:90-95 | an awaited fetch succeeds exactly on an ok reply and yields its JSON; a non-ok status throws `Error: <endpoint> HTTP <status> for <slug>`; a rejected fetch rethrows its error |
| Endpoints.LowerIsAc | scrap-contest.js:154 | ASCII lower-casing gives `"ac"` exactly for the four spellings `ac`, `aC`, `Ac`, `AC` |
| Endpoints.IsSolved | scrap-contest.js:146-154 | `solved` holds exactly when the status is present and lower-cases to `"ac"`; a null, missing or empty status is unsolved |
| Endpoints.IsSolvedExamples | scrap-contest.js:154 | `"AC"` and `"ac"` are solved; `"notac"` and null are not |
| Endpoints.ProblemUrl | scrap-contest.js:155 | the URL is `https://leetcode.com/problems/`, the slug, then `/` |
| Endpoints.ProblemUrlInjective | scrap-contest.js:155 | two problem URLs are equal only for equal slugs |
| ContestInput.PathSlug | contest-question-status.js:26-27 | the URL branch yields `""` exactly when no `/contest/` in the pathname is followed by a non-slash character; otherwise it yields the maximal slash-free run after the first such occurrence |
| ContestInput.StripInput | contest-question-status.js:29 | the trimmed input loses at most one leading `/contest/` and then exactly one trailing `/` when it ends with one, and nothing else |
| ContestInput.PathSlugOfContestPath | contest-question-status.js:26-27 | a pathname `/contest/<slug>` followed by nothing or by `/...` yields the slug |
| ContestInput.SlugFromInput | contest-question-status.js:22-30 | a missing or empty input normalises to `""`; the result is an error exactly when the input contains `leetcode.com/contest/` and the URL parser throws, and that error carries the parser's message |
| ContestInput.ContestSlug | contest-question-status.js:22-34 | a missing or empty input raises the invalid-input error; a non-URL input gives the stripped trimmed input, or that error when it is empty; a URL input gives the parser's error, or the pathname's first contest segment, or the invalid-input error when there is none; a success is never empty |
| ContestInput.BareSlugRoundTrip | contest-question-status.js:29 | a slash-free slug, padded with whitespace or not, normalises to itself |
| ContestInput.StripContestPath | contest-question-status.js:29 | stripping `/contest/<slug>/` removes one leading `/contest/` and one trailing `/` |
| ContestInput.ContestPathRoundTrip | contest-question-status.js:22-30 | the input `/contest/<slug>/` normalises to the slug |
| ContestInput.UrlRoundTrip | contest-question-status.js:24-27 | a contest URL whose pathname is `/contest/<slug>` plus nothing or `/...` normalises to the slug |
| Text.Trim | scrap-contest.js:72-73 | the result has no ECMAScript whitespace at either end and is the input without a whitespace prefix and suffix |
| Text.TrimPadded | contest-question-status.js:29 | trimming removes exactly the whitespace padding around a trimmed text |
| Text.NatToStringRoundTrip | scrap-contest-update-badge.js:181 | the decimal rendering of a count reads back as the same count |
| Seqs.FilterMap | scrap-contest.js:64-84 | `map` then `filter(Boolean)` keeps at most one result per element, each produced by some element |
| Seqs.FilterMapByIndices | scrap-contest.js:64-84 | the filtered results are, in order, exactly the results of the accepted elements |
| Seqs.Find | scrap-contest-update-badge.js:75-77 | `find` returns the first element satisfying the test, or nothing when none does |
| Seqs.CountAll | scrap-contest-update-badge.js:177 | `filter(p).length` equals the length exactly when every element satisfies `p` |
| Seqs.CountNone | scrap-contest-update-badge.js:177 | `filter(p).length` is zero exactly when no element satisfies `p` |
| Seqs.CountSplit | scrap-contest-update-badge.js:177 | counting under a disjunction of two exclusive tests adds the two counts |
| SolvedReport.Detail | scrap-contest.js:145-156 | the detail keeps the requested slug, builds the URL from it, takes the status as given, solves exactly on an `ac` status, and takes title, frontend id and difficulty from the question with `(unknown)`/`""` defaults for each missing field or missing question |
| SolvedReport.ProblemWorker | scrap-contest.js:180-193 | a problem row exists exactly when the status query answered ok; it carries the contest's title and slug for the question, the answer's title, id and difficulty as the status detail shapes them, and `✅` exactly when solved, else `❌` |
| SolvedReport.ContestWorker | scrap-contest.js:163-201 | a contest report exists exactly when the contest-info fetch answered ok; it has one problem slot per extracted question, in order, each the caught problem worker, and carries the note exactly when there are no questions |
| SolvedReport.FlatRows | scrap-contest.js:213-224 | the flat table's length is the sum of the `problems` lengths |
| SolvedReport.FlatRowsIndex | scrap-contest.js:213-224 | the flat table is contest-major: row `offset(i) + j` is problem `j` of contest `i` |
| SolvedReport.PrintedTableIndex | scrap-contest.js:214-223 | when no contest failed, the printed table holds problem `j` of contest `i` at the row after all problems of the earlier contests plus `j`, tagged with that contest's name and slug |
| SolvedReport.ScrapContest | scrap-contest.js:52-229 | no cards ends the run early; otherwise report `i` is contest `i`'s caught worker outcome for every interleaving of 3 runners, and the report is saved exactly when every contest succeeded |
| BadgeReport.EmptyBadgeText | scrap-contest-update-badge.js:161 | a contest without questions shows `0 / 0` |
| BadgeReport.BadgeTextRecognised | scrap-contest-update-badge.js:181 | the written badge `${solved} / ${total}` is again recognised as a badge, so a second run finds the same span |
| BadgeReport.LoadingTextNotRecognised | scrap-contest-update-badge.js:152 | the placeholder `... / ...` is not recognised as a badge |
| BadgeReport.BadgeTextInjective | scrap-contest-update-badge.js:181 | the badge text determines both the solved and the total count |
| BadgeReport.StatusWorker | scrap-contest-update-badge.js:139-143 | the flag exists exactly when the status query answered ok, and is true exactly for a status that lower-cases to `ac` |
| BadgeReport.SolvedCountAsWritten | scrap-contest-update-badge.js:177 | the count as written, `filter(Boolean).length`, counts the slots that are `true` or an error sentinel, at most one per question |
| BadgeReport.SolvedCount | scrap-contest-update-badge.js:177 | the intended solved count is at most the number of questions |
| BadgeReport.SolvedCountBounds | scrap-contest-update-badge.js:177 | the intended count is full exactly when every question is solved, and zero exactly when none is |
| BadgeReport.AsWrittenCountsFailures | scrap-contest-update-badge.js:177 | the count as written is the intended count plus the number of failed status queries |
| BadgeReport.AllFailingCountedSolved | scrap-contest-update-badge.js:172-177 | when every status query fails, the count as written reports all questions solved while the intended count is zero |
| BadgeReport.OneRejectedQuestionBadge | scrap-contest-update-badge.js:172-181 | one question whose status query answers HTTP 403 shows `1 / 1` as written, `0 / 1` as intended |
| BadgeReport.SolvedCountOfQuestions | scrap-contest-update-badge.js:172-177 | the intended count is the number of questions whose status query answered `ac` |
| BadgeReport.FailedCountOfQuestions | scrap-contest-update-badge.js:172-177 | the error sentinels in `solvedFlags` are as many as the questions whose status query threw |
| BadgeReport.CountWorker | scrap-contest-update-badge.js:150-195 | a count report exists exactly when the contest-info fetch answered ok; its total is the number of extracted questions; as written its solved count is the number of questions answered `ac` plus the number whose status query threw, with the corrected rule only the former; the note appears exactly for zero questions |
| BadgeReport.CountRulesAgree | scrap-contest-update-badge.js:172-177 | when every status query answers ok, the script's count and the corrected count give the same report |
| BadgeReport.BadgeAfter | scrap-contest-update-badge.js:152-181 | a card keeps a badge text exactly when it has a badge span; a successful contest writes `${solvedCount} / ${totalCount}`, a failed one keeps `... / ...`; the text is recognised by a later run exactly when its contest succeeded |
| BadgeReport.BadgeAfterRecognised | scrap-contest-update-badge.js:152-181 | a successful contest's badge is its counts' text, and any badge left by the run that reads as counts reads back as exactly the report's solved and total counts; a failed contest leaves none that reads as counts |
| BadgeReport.SummaryText | scrap-contest-update-badge.js:199-205 | a successful contest's summary cell is `${solvedCount} / ${totalCount}`, the same text as its badge; the cell reads `undefined / undefined` exactly for a failed contest |
| BadgeReport.UpdateBadges | scrap-contest-update-badge.js:51-210 | no cards ends the run early; otherwise the contests are the scrap-contest.js contests with their badge spans, report `i` is contest `i`'s caught worker outcome, under the chosen counting rule, for every interleaving of 3 runners, and each badge and summary cell follows from its report |
| ContestCheck.CheckRow | contest-question-status.js:85-96 | the row's URL is built from the requested slug; its slug is the response's slug, or the requested one when the response has none; id, title and difficulty come from the answer with `""`/`(unknown)` defaults; solved exactly on an `ac` status |
| ContestCheck.CheckRowAgreesWithDetail | contest-question-status.js:87-95 | the row agrees with the status detail scrap-contest.js builds from the same answer in id, title, difficulty, status, solved flag and URL; the slugs differ exactly when the answer names a different slug |
| ContestCheck.QueryStatus | contest-question-status.js:82-96 | a row exists exactly when the status query answered ok; otherwise the query throws its HTTP or fetch error |
| ContestCheck.CheckStatuses | contest-question-status.js:109-113 | questions are queried one at a time in order; the run succeeds exactly when every query answers ok, with one row per question in question order; otherwise it stops at the first failing query, after asking only for the slugs up to it |
| ContestCheck.CheckContestSolved | contest-question-status.js:5-127 | a bad input rejects before any request; a failed contest-info fetch rejects; otherwise the extracted questions are queried in order, the call succeeds exactly when every query answers ok, and then every question was asked for and one row per question is returned (none for a contest without questions); a failure rejects with the error of the last slug asked for, whose query failed, after every earlier query answered ok |

## Left out

- Network, HTTP and JSON decoding are left out. Each fetch is a function from a slug to a
  reply: rejected, non-ok with a status, or a decoded body. JSON field values other than
  strings are left out.
- DOM scraping is left out: `querySelectorAll`, `textContent`, and writing `textContent`.
  A card is given as its href, heading, text and span texts. The badge update is the text the
  span ends with.
- Cookies and the CSRF token (including the "not found" warning) are left out, because they
  only feed request headers.
- `abs` and the `url`/`contestUrl` fields are left out. They need `location.origin` and the
  URL parser.
- `new URL(...)` in `checkContestSolved` is a given function returning the pathname or the
  rendered error.
- `sleep` pacing and wall-clock timing are left out. Worker results depend only on
  `(item, index)`, so the model does not capture responses that change between requests.
- Console output, `console.table` and the `window.__...` globals with their timestamps are left
  out. The saved data is the value the model returns.
- `questionId` and `credit` (scrap-contest.js:106-107) are left out, because nothing reads
  them later.
- `toLowerCase` is modelled on ASCII letters only. No non-ASCII character lower-cases to `a`
  or `c`, so `solved` is unaffected.
- `slice(0, 80)` counts UTF-16 code units in the source; the model counts characters.
- WorkerPool.MapLimit: requires `limit >= 1`. With `limit <= 0` the source starts no runners
  and returns an array of holes, which the scripts never ask for.
- A worker's settlement and the runner's next claim are one step. JavaScript's
  run-to-completion semantics makes them atomic, so no interleaving is lost.
- An error sentinel stores `String(e)` as the error text the model supplies. For a worker that
  throws `new Error(m)` this is `Error: m`, and the fetch rejection reason is taken as given.

## Findings

| source | as written | input that shows it | evidently intended | confidence | as-written member | corrected member |
|---|---|---|---|---|---|---|
| scrap-contest-update-badge.js:177 | `solvedFlags.filter(Boolean).length` counts the `{__error}` sentinel objects that `mapLimit` stores for failed status queries, and objects are truthy | a contest with one question whose GraphQL status request answers HTTP 403: the badge reads `1 / 1` | count only the flags that are `true`, so the badge reads `0 / 1` | high that the count is inflated, not executed | BadgeReport.SolvedCountAsWritten | BadgeReport.SolvedCount |

=== FILE: badge_report.dfy ===
/** scrap-contest-update-badge.js: the same fan-out as the report script, but each contest
    only counts its solved questions and writes `solved / total` into the card's badge span. */
module BadgeReport {
  import opened Wrappers
  import opened Text
  import opened WorkerPool
  import Seqs
  import ContestCards
  import ContestApi
  import Endpoints

  const ContestConcurrency: nat := 3

  /** The placeholder written into the badge before the contest is fetched. */
  const LoadingText: string := "... / ..."
  const NoQuestionsNote: string := "No questions found in contest API response"

  /** The badge text `${solved} / ${total}`. */
  function BadgeText(solved: nat, total: nat): string {
    NatToString(solved) + " / " + NatToString(total)
  }

  /** The text written for a contest without questions is `0 / 0`. */
  lemma EmptyBadgeText()
    ensures BadgeText(0, 0) == "0 / 0"
  {
    assert NatToString(0) == "0";
  }

  /** The badge text is the badge shape with single spaces around the slash. */
  lemma BadgeTextShape(solved: nat, total: nat)
    ensures BadgeText(solved, total) == ContestCards.BadgeShaped([], NatToString(solved), " ", " ", NatToString(total), [])
  {
    var d1, d2 := NatToString(solved), NatToString(total);
    assert " / " == " " + ("/" + " ");
    assert d1 + " / " + d2 == d1 + (" " + ("/" + (" " + d2)));
    assert d2 + [] == d2;
  }

  lemma BadgeTextTrimmed(solved: nat, total: nat)
    ensures Trimmed(BadgeText(solved, total))
  {
    var d1, d2 := NatToString(solved), NatToString(total);
    var t := BadgeText(solved, total);
    assert t[0] == d1[0];
    assert t[|t| - 1] == d2[|d2| - 1];
  }

  /** The badge the script writes is again found by the badge pattern, so a second run
      finds and rewrites the same span. */
  lemma BadgeTextRecognised(solved: nat, total: nat)
    ensures ContestCards.IsBadgeSpan(BadgeText(solved, total))
  {
    var t := BadgeText(solved, total);
    assert IsSpace(' ');
    ContestCards.BadgePatternComplete([], NatToString(solved), " ", " ", NatToString(total), []);
    BadgeTextShape(solved, total);
    BadgeTextTrimmed(solved, total);
    TrimPadded([], t, []);
    assert [] + t + [] == t;
  }

  /** The placeholder is not a badge: a contest whose worker failed keeps a badge that a
      later run does not recognise. */
  lemma LoadingTextNotRecognised()
    ensures !ContestCards.IsBadgeSpan(LoadingText)
  {
    assert Trimmed(LoadingText) by {
      assert !IsSpace(LoadingText[0]) && !IsSpace(LoadingText[|LoadingText| - 1]);
    }
    TrimPadded([], LoadingText, []);
    assert [] + LoadingText + [] == LoadingText;
    assert ContestCards.SkipSpaces(LoadingText) == LoadingText;
    assert ContestCards.LeadingDigits(LoadingText) == 0;
  }

  lemma DigitsPrefixLength(a: string, a': string, rest: string, rest': string)
    requires AllDigits(a) && AllDigits(a') && rest != [] && rest' != [] && !IsDigit(rest[0]) && !IsDigit(rest'[0])
    requires a + rest == a' + rest'
    ensures a == a' && rest == rest'
  {
    var t := a + rest;
    assert forall i :: 0 <= i < |a| ==> IsDigit(t[i]);
    assert forall i :: 0 <= i < |a'| ==> IsDigit(t[i]) by {
      assert t == a' + rest';
    }
    assert !IsDigit(t[|a|]) && !IsDigit((a' + rest')[|a'|]);
    assert |a| == |a'|;
    assert a == (a + rest)[..|a|] && a' == (a' + rest')[..|a|];
    assert rest == (a + rest)[|a|..] && rest' == (a' + rest')[|a|..];
  }

  /** The badge text determines both counts: reading it back gives `solved` and `total`. */
  lemma BadgeTextInjective(s: nat, t: nat, s': nat, t': nat)
    requires BadgeText(s, t) == BadgeText(s', t')
    ensures s == s' && t == t'
  {
    var a, a' := NatToString(s), NatToString(s');
    var rest, rest' := " / " + NatToString(t), " / " + NatToString(t');
    assert BadgeText(s, t) == a + rest && BadgeText(s', t') == a' + rest';
    DigitsPrefixLength(a, a', rest, rest');
    assert NatToString(t) == rest[3..] && NatToString(t') == rest'[3..];
    NatToStringRoundTrip(s);
    NatToStringRoundTrip(s');
    NatToStringRoundTrip(t);
    NatToStringRoundTrip(t');
  }

  /** The inner worker: `getProblemStatus` reduced to its solved flag; a failed query throws. */
  function StatusWorker(q: ContestApi.Question, statusOf: string -> Endpoints.Reply<Option<Endpoints.QuestionData>>): (r: Result<bool, string>)
    ensures r.Success? <==> statusOf(q.titleSlug).Body?
    ensures r.Failure? ==> r.error == Endpoints.Await(Endpoints.GraphQL, q.titleSlug, statusOf(q.titleSlug)).error
    ensures r.Success? ==> var status := Endpoints.StatusOf(statusOf(q.titleSlug).json);
      (r.value <==> status.Some? && status.value in Endpoints.AcSpellings)
  {
    match Endpoints.Await(Endpoints.GraphQL, q.titleSlug, statusOf(q.titleSlug))
    case Failure(e) => Failure(e)
    case Success(data) => Success(Endpoints.IsSolved(Endpoints.StatusOf(data)))
  }

  /** `solvedFlags`: the inner `mapLimit` written as its meaning `MapAll`, which
      `WorkerPool.MapLimit` delivers for every interleaving of its 6 runners. */
  function StatusFlags(questions: seq<ContestApi.Question>, statusOf: string -> Endpoints.Reply<Option<Endpoints.QuestionData>>): (flags: seq<Slot<bool>>)
    ensures |flags| == |questions|
    ensures forall i :: 0 <= i < |questions| ==> flags[i] == Catch(StatusWorker(questions[i], statusOf))
  {
    MapAll(questions, (q, _) => StatusWorker(q, statusOf))
  }

  /** `Boolean(flag)` for a slot of `solvedFlags`: `true`, or the `{__error}` object, which is truthy. */
  predicate TruthySlot(s: Slot<bool>) {
    s == Value(true) || s.ErrorSentinel?
  }

  predicate SolvedSlot(s: Slot<bool>) {
    s == Value(true)
  }

  predicate FailedSlot(s: Slot<bool>) {
    s.ErrorSentinel?
  }

  /** `solvedFlags.filter(Boolean).length` as written: a failed status query counts as solved. */
  function SolvedCountAsWritten(flags: seq<Slot<bool>>): (c: nat)
    ensures c <= |flags|
  {
    Seqs.Count(flags, TruthySlot)
  }

  /** The intended count: the questions whose status query answered "ac". */
  function SolvedCount(flags: seq<Slot<bool>>): (c: nat)
    ensures c <= |flags|
  {
    Seqs.Count(flags, SolvedSlot)
  }

  function FailedCount(flags: seq<Slot<bool>>): nat {
    Seqs.Count(flags, FailedSlot)
  }

  /** The written count exceeds the intended one by exactly the number of failed queries. */
  lemma AsWrittenCountsFailures(flags: seq<Slot<bool>>)
    ensures SolvedCountAsWritten(flags) == SolvedCount(flags) + FailedCount(flags)
  {
    Seqs.CountSplit(flags, SolvedSlot, FailedSlot, TruthySlot);
  }

  /** The corrected count is full exactly when every question is solved, and zero exactly
      when none is. */
  lemma SolvedCountBounds(flags: seq<Slot<bool>>)
    ensures SolvedCount(flags) == |flags| <==> forall i :: 0 <= i < |flags| ==> flags[i] == Value(true)
    ensures SolvedCount(flags) == 0 <==> forall i :: 0 <= i < |flags| ==> flags[i] != Value(true)
  {
    Seqs.CountAll(flags, SolvedSlot);
    Seqs.CountNone(flags, SolvedSlot);
  }

  /** The discrepancy: when every status query of a non-empty contest fails, the written count
      reports all questions solved while none was confirmed. */
  lemma AllFailingCountedSolved(questions: seq<ContestApi.Question>, statusOf: string -> Endpoints.Reply<Option<Endpoints.QuestionData>>)
    requires forall k :: 0 <= k < |questions| ==> !statusOf(questions[k].titleSlug).Body?
    ensures var flags := StatusFlags(questions, statusOf);
      SolvedCountAsWritten(flags) == |questions| && SolvedCount(flags) == 0
  {
    var flags := StatusFlags(questions, statusOf);
    assert forall i :: 0 <= i < |flags| ==> flags[i].ErrorSentinel?;
    Seqs.CountAll(flags, TruthySlot);
    Seqs.CountNone(flags, SolvedSlot);
  }

  /** A concrete instance: one question, its status query answered with HTTP 403. */
  lemma OneRejectedQuestionBadge()
    ensures var flags := StatusFlags([ContestApi.Question("Two Sum", "two-sum")], _ => Endpoints.NotOk(403));
      BadgeText(SolvedCountAsWritten(flags), 1) == "1 / 1" && BadgeText(SolvedCount(flags), 1) == "0 / 1"
  {
    var flags := StatusFlags([ContestApi.Question("Two Sum", "two-sum")], _ => Endpoints.NotOk(403));
    assert flags[0].ErrorSentinel?;
    assert flags[..0] == [];
    assert NatToString(0) == "0" && NatToString(1) == "1";
  }

  /** Counting the flags of `MapAll` is counting the questions whose query answered "ac". */
  lemma {:induction false} SolvedCountOfQuestions(questions: seq<ContestApi.Question>, statusOf: string -> Endpoints.Reply<Option<Endpoints.QuestionData>>)
    ensures SolvedCount(StatusFlags(questions, statusOf))
         == Seqs.Count(questions, q => StatusWorker(q, statusOf) == Success(true))
  {
    if questions != [] {
      var init := questions[..|questions| - 1];
      SolvedCountOfQuestions(init, statusOf);
      assert StatusFlags(questions, statusOf)[..|questions| - 1]
          == StatusFlags(init, statusOf);
    }
  }

  /** Counting the error sentinels of `MapAll` is counting the questions whose query threw. */
  lemma {:induction false} FailedCountOfQuestions(questions: seq<ContestApi.Question>, statusOf: string -> Endpoints.Reply<Option<Endpoints.QuestionData>>)
    ensures FailedCount(StatusFlags(questions, statusOf))
         == Seqs.Count(questions, q => StatusWorker(q, statusOf).Failure?)
  {
    if questions != [] {
      var init := questions[..|questions| - 1];
      FailedCountOfQuestions(init, statusOf);
      assert StatusFlags(questions, statusOf)[..|questions| - 1]
          == StatusFlags(init, statusOf);
    }
  }

  /** Which count the outer worker reports: the script's `filter(Boolean)`, or the questions
      confirmed "ac" only. */
  datatype Counting = AsWritten | Intended

  function Tally(rule: Counting, flags: seq<Slot<bool>>): (c: nat)
    ensures c <= |flags|
  {
    match rule
    case AsWritten => SolvedCountAsWritten(flags)
    case Intended => SolvedCount(flags)
  }

  /** One contest's result object. */
  datatype CountReport = CountReport(contest: string, contestSlug: string, solvedCount: nat, totalCount: nat, note: Option<string>)

  /** The outer worker.  With `AsWritten` it is the script's worker, whose count includes every
      question whose status query threw; with `Intended` it counts confirmed answers only. */
  function CountWorker(rule: Counting, c: ContestCards.Contest, infoOf: string -> Endpoints.Reply<ContestApi.InfoBody>,
                       statusOf: string -> Endpoints.Reply<Option<Endpoints.QuestionData>>): (r: Result<CountReport, string>)
    ensures r.Success? <==> infoOf(c.slug).Body?
    ensures r.Failure? ==> r.error == Endpoints.Await(Endpoints.ContestApi, c.slug, infoOf(c.slug)).error
    ensures r.Success? ==> var qs := ContestApi.Extract(infoOf(c.slug).json, ContestApi.ContestScheme);
      && r.value.contest == c.name && r.value.contestSlug == c.slug
      && r.value.totalCount == |qs|
      && r.value.solvedCount <= r.value.totalCount
      && (rule == Intended ==> r.value.solvedCount == Seqs.Count(qs, q => StatusWorker(q, statusOf) == Success(true)))
      && (rule == AsWritten ==> r.value.solvedCount == Seqs.Count(qs, q => StatusWorker(q, statusOf) == Success(true))
                                                     + Seqs.Count(qs, q => StatusWorker(q, statusOf).Failure?))
      && (r.value.note.Some? <==> qs == [])
  {
    match Endpoints.Await(Endpoints.ContestApi, c.slug, infoOf(c.slug))
    case Failure(e) => Failure(e)
    case Success(info) =>
      var questions := ContestApi.Extract(info, ContestApi.ContestScheme);
      if questions == [] then Success(CountReport(c.name, c.slug, 0, 0, Some(NoQuestionsNote)))
      else
        var flags := StatusFlags(questions, statusOf);
        SolvedCountOfQuestions(questions, statusOf);
        FailedCountOfQuestions(questions, statusOf);
        AsWrittenCountsFailures(flags);
        Success(CountReport(c.name, c.slug, Tally(rule, flags), |questions|, None))
  }

  /** While every status query answers, the script's count and the intended one agree. */
  lemma CountRulesAgree(c: ContestCards.Contest, infoOf: string -> Endpoints.Reply<ContestApi.InfoBody>,
                        statusOf: string -> Endpoints.Reply<Option<Endpoints.QuestionData>>)
    requires forall slug :: statusOf(slug).Body?
    ensures CountWorker(AsWritten, c, infoOf, statusOf) == CountWorker(Intended, c, infoOf, statusOf)
  {
    if infoOf(c.slug).Body? {
      var qs := ContestApi.Extract(infoOf(c.slug).json, ContestApi.ContestScheme);
      var flags := StatusFlags(qs, statusOf);
      forall i | 0 <= i < |qs| ensures !StatusWorker(qs[i], statusOf).Failure? {
        assert statusOf(qs[i].titleSlug).Body?;
      }
      Seqs.CountNone(qs, q => StatusWorker(q, statusOf).Failure?);
      FailedCountOfQuestions(qs, statusOf);
      AsWrittenCountsFailures(flags);
      assert Tally(AsWritten, flags) == Tally(Intended, flags);
    }
  }

  /** The badge span's text once the run is over: untouched when the card has no badge, the
      placeholder when the worker threw after writing it, the counts otherwise.  A later run
      recognises the span exactly when the contest succeeded. */
  function BadgeAfter(c: ContestCards.BadgeContest, result: Slot<CountReport>): (r: Option<string>)
    ensures r.Some? <==> c.badge.Some?
    ensures r.Some? ==> (ContestCards.IsBadgeSpan(r.value) <==> result.Value?)
    ensures c.badge.Some? && result.Value? ==> r == Some(BadgeText(result.value.solvedCount, result.value.totalCount))
    ensures c.badge.Some? && result.ErrorSentinel? ==> r == Some(LoadingText)
  {
    if c.badge.None? then None
    else match result
      case ErrorSentinel(_) =>
        LoadingTextNotRecognised();
        Some(LoadingText)
      case Value(rep) =>
        BadgeTextRecognised(rep.solvedCount, rep.totalCount);
        Some(BadgeText(rep.solvedCount, rep.totalCount))
  }

  /** A badge left by the run reads back as the report's counts, and only a successful report
      leaves one that reads as counts at all. */
  lemma BadgeAfterRecognised(c: ContestCards.BadgeContest, result: Slot<CountReport>)
    requires c.badge.Some?
    ensures result.Value? ==> BadgeAfter(c, result) == Some(BadgeText(result.value.solvedCount, result.value.totalCount))
    ensures forall s: nat, t: nat :: BadgeAfter(c, result) == Some(BadgeText(s, t)) ==>
      result.Value? && s == result.value.solvedCount && t == result.value.totalCount
  {
    match result
    case ErrorSentinel(_) =>
      forall s: nat, t: nat ensures LoadingText != BadgeText(s, t) {
        LoadingTextNotRecognised();
        BadgeTextRecognised(s, t);
      }
    case Value(rep) =>
      forall s: nat, t: nat | BadgeText(rep.solvedCount, rep.totalCount) == BadgeText(s, t)
        ensures s == rep.solvedCount && t == rep.totalCount
      {
        BadgeTextInjective(rep.solvedCount, rep.totalCount, s, t);
      }
  }

  /** The `solved` cell of the printed summary: `${r.solvedCount} / ${r.totalCount}`, which
      renders `undefined` for the fields of an `{__error}` sentinel. */
  function SummaryText(result: Slot<CountReport>): (text: string)
    ensures result.ErrorSentinel? <==> text == "undefined / undefined"
    ensures result.Value? ==> text == BadgeText(result.value.solvedCount, result.value.totalCount)
  {
    match result
    case ErrorSentinel(_) => "undefined / undefined"
    case Value(rep) =>
      assert BadgeText(rep.solvedCount, rep.totalCount)[0] != 'u';
      BadgeText(rep.solvedCount, rep.totalCount)
  }

  /** How a run of the script ends. */
  datatype Run =
    | NoContestCards
    | Updated(contests: seq<ContestCards.BadgeContest>, reports: seq<Slot<CountReport>>,
              badges: seq<Option<string>>, summary: seq<string>)

  /** The whole script over the cards the selector matched, the two endpoints given as functions;
      `AsWritten` is the script itself, `Intended` the same run with the corrected count. */
  method UpdateBadges(rule: Counting, cards: seq<ContestCards.Card>, infoOf: string -> Endpoints.Reply<ContestApi.InfoBody>,
                      statusOf: string -> Endpoints.Reply<Option<Endpoints.QuestionData>>) returns (run: Run)
    ensures cards == [] <==> run.NoContestCards?
    ensures run.Updated? ==>
      && run.contests == Seqs.FilterMap(cards, ContestCards.CardBadgeContest)
      && |run.contests| == |ContestCards.ScrapeContests(cards)|
      && |run.reports| == |run.contests| == |run.badges| == |run.summary|
    ensures run.Updated? ==> forall i :: 0 <= i < |run.contests| ==>
      && run.contests[i].contest == ContestCards.ScrapeContests(cards)[i]
      && run.reports[i] == Catch(CountWorker(rule, run.contests[i].contest, infoOf, statusOf))
      && run.badges[i] == BadgeAfter(run.contests[i], run.reports[i])
      && run.summary[i] == SummaryText(run.reports[i])
  {
    if cards == [] {
      return NoContestCards;
    }
    var contests := Seqs.FilterMap(cards, ContestCards.CardBadgeContest);
    ContestCards.BadgeScrapeAgrees(cards);
    var reports, _, _ := MapLimit(contests, ContestConcurrency, (c: ContestCards.BadgeContest, _) => CountWorker(rule, c.contest, infoOf, statusOf));
    var badges := seq(|contests|, i requires 0 <= i < |contests| => BadgeAfter(contests[i], reports[i]));
    var summary := seq(|contests|, i requires 0 <= i < |contests| => SummaryText(reports[i]));
    run := Updated(contests, reports, badges, summary);
  }
}

=== FILE: contest_api.dfy ===
/** The question list read from the contest-info JSON (`GET /contest/api/info/<slug>/`).
    A question entry is a record from key to string, where `None` stands for `null`;
    a missing key, `null` and `""` are the falsy values `||` skips. */
module ContestApi {
  import opened Wrappers
  import Seqs

  type Record = map<string, Option<string>>

  /** `json?.questions`: an array of entries, or anything else (missing, `null`, not an array).
      A `null` or non-object entry reads as the empty record, since every `q?.key` is then undefined. */
  datatype InfoBody = QuestionsArray(entries: seq<Record>) | NoQuestionsArray

  datatype Question = Question(title: string, titleSlug: string)

  /** The synonyms, in priority order, a script reads the title and the slug from. */
  datatype Scheme = Scheme(titleKeys: seq<string>, slugKeys: seq<string>)

  const UnknownTitle: string := "(unknown)"

  /** `extractQuestionsFromContestApiJson` of the two scrap-contest scripts. */
  const ContestScheme: Scheme := Scheme(["title", "question__title", "translated_title"],
                                        ["title_slug", "question__title_slug", "titleSlug"])

  /** `extractQuestions` of contest-question-status.js. */
  const CheckScheme: Scheme := Scheme(["title"], ["title_slug"])

  /** `rec?.key`: undefined when the key is missing. */
  function Field(rec: Record, key: string): Option<string> {
    if key in rec then rec[key] else None
  }

  predicate Truthy(v: Option<string>) {
    v.Some? && v.value != ""
  }

  /** `rec?.k0 || rec?.k1 || ...`, `None` when every synonym is falsy. */
  function FirstTruthy(rec: Record, keys: seq<string>): (r: Option<string>)
    ensures r.None? <==> forall k :: 0 <= k < |keys| ==> !Truthy(Field(rec, keys[k]))
    ensures r.Some? ==> r.value != ""
    ensures r.Some? ==>
      exists k :: 0 <= k < |keys| && Field(rec, keys[k]) == r && forall j :: 0 <= j < k ==> !Truthy(Field(rec, keys[j]))
  {
    if keys == [] then None
    else if Truthy(Field(rec, keys[0])) then Field(rec, keys[0])
    else
      var r := FirstTruthy(rec, keys[1..]);
      assert forall k :: 1 <= k < |keys| ==> keys[k] == keys[1..][k - 1];
      r
  }

  /** One entry mapped to `{title, titleSlug}`, kept only when the slug is truthy. */
  function Build(scheme: Scheme, rec: Record): (q: Option<Question>)
    ensures q.Some? <==> exists k :: 0 <= k < |scheme.slugKeys| && Truthy(Field(rec, scheme.slugKeys[k]))
    ensures q.Some? ==> q.value.titleSlug != "" && q.value.title != ""
    ensures q.Some? && (forall k :: 0 <= k < |scheme.titleKeys| ==> !Truthy(Field(rec, scheme.titleKeys[k]))) ==>
      q.value.title == UnknownTitle
    ensures q.Some? ==> Some(q.value.titleSlug) == FirstTruthy(rec, scheme.slugKeys)
    ensures q.Some? ==> q.value.title == FirstTruthy(rec, scheme.titleKeys).GetOr(UnknownTitle)
  {
    match FirstTruthy(rec, scheme.slugKeys)
    case None => None
    case Some(slug) => Some(Question(FirstTruthy(rec, scheme.titleKeys).GetOr(UnknownTitle), slug))
  }

  /** The questions of a contest-info body, in entry order, without the slug-less entries. */
  function Extract(info: InfoBody, scheme: Scheme): (qs: seq<Question>)
    ensures info.NoQuestionsArray? ==> qs == []
    ensures info.QuestionsArray? ==> |qs| <= |info.entries|
    ensures forall q :: q in qs ==> q.titleSlug != "" && q.title != ""
    ensures info.QuestionsArray? ==> forall q :: q in qs ==>
      exists i :: 0 <= i < |info.entries| && Build(scheme, info.entries[i]) == Some(q)
  {
    match info
    case NoQuestionsArray => []
    case QuestionsArray(entries) => Seqs.FilterMap(entries, rec => Build(scheme, rec))
  }

  /** Question `k` is built from the `k`-th entry with a truthy slug synonym, and every such entry yields one. */
  lemma ExtractByEntry(entries: seq<Record>, scheme: Scheme)
    ensures var qs := Extract(QuestionsArray(entries), scheme);
      var ks := Seqs.KeptIndices(entries, rec => Build(scheme, rec));
      && |qs| == |ks|
      && (forall k :: 0 <= k < |qs| ==> Build(scheme, entries[ks[k]]) == Some(qs[k]))
      && (forall k, l :: 0 <= k < l < |ks| ==> ks[k] < ks[l])
      && (forall i :: 0 <= i < |entries| && Build(scheme, entries[i]).Some? ==> i in ks)
  {
    Seqs.FilterMapByIndices(entries, rec => Build(scheme, rec));
  }

  /** contest-question-status.js reads nothing but `title` and `title_slug`. */
  lemma CheckSchemeReadsTwoKeys(rec: Record)
    ensures Build(CheckScheme, rec) == Build(CheckScheme, map k | k in rec && k in {"title", "title_slug"} :: rec[k])
  {
    var small := map k | k in rec && k in {"title", "title_slug"} :: rec[k];
    assert Field(small, "title") == Field(rec, "title");
    assert Field(small, "title_slug") == Field(rec, "title_slug");
  }

  /** An entry contest-question-status.js keeps is kept by the scrap-contest scripts with the same slug. */
  lemma CheckSchemeNarrower(rec: Record)
    requires Build(CheckScheme, rec).Some?
    ensures Build(ContestScheme, rec).Some?
    ensures Build(ContestScheme, rec).value.titleSlug == Build(CheckScheme, rec).value.titleSlug
  {
    assert Truthy(Field(rec, CheckScheme.slugKeys[0]));
    assert Truthy(Field(rec, ContestScheme.slugKeys[0]));
  }

  /** An entry carrying only the `titleSlug` synonym is dropped by contest-question-status.js only. */
  lemma SynonymOnlyInContestScheme()
    ensures var rec: Record := map["titleSlug" := Some("two-sum")];
      Build(CheckScheme, rec) == None && Build(ContestScheme, rec) == Some(Question(UnknownTitle, "two-sum"))
  {
    var rec: Record := map["titleSlug" := Some("two-sum")];
    assert !Truthy(Field(rec, "title_slug"));
    assert !Truthy(Field(rec, "question__title_slug"));
    assert Truthy(Field(rec, ContestScheme.slugKeys[2]));
    assert FirstTruthy(rec, ContestScheme.slugKeys[2..]) == Some("two-sum");
    assert FirstTruthy(rec, ContestScheme.slugKeys[1..]) == Some("two-sum");
    assert FirstTruthy(rec, ContestScheme.titleKeys[2..]) == None;
    assert FirstTruthy(rec, ContestScheme.titleKeys[1..]) == None;
  }
}

=== FILE: contest_cards.dfy ===
/** The contest cards scraped from the contest list page: the slug taken from each card's
    `href` by `/^\/contest\/([^/]+)\/?$/`, the card's display name and, in the badge script,
    the first `<span>` whose trimmed text looks like `"X / Y"`. */
module ContestCards {
  import opened Wrappers
  import opened Text
  import Seqs

  /** What the scripts read from one `<a>` card: its `href` attribute (`None` when absent),
      the trimmed-to-be text of its `.text-base.font-medium` element (`None` when there is
      none), its own text, and the texts of its `<span>` descendants in document order. */
  datatype Card = Card(href: Option<string>, heading: Option<string>, text: string, spans: seq<string>)

  datatype Contest = Contest(name: string, slug: string, href: string)

  /** A contest of the badge script, with the position of its badge span among the card's spans. */
  datatype BadgeContest = BadgeContest(contest: Contest, badge: Option<nat>)

  const ContestPrefix: string := "/contest/"

  /** The longest card text kept as a fallback name (`slice(0, 80)`). */
  const NameLimit: nat := 80

  /** The anchored href pattern `^/contest/([^/]+)/?$`, giving the captured slug. */
  function MatchContestHref(href: string): (slug: Option<string>)
    ensures slug.Some? ==> slug.value != [] && '/' !in slug.value
    ensures slug.Some? ==> href == ContestPrefix + slug.value || href == ContestPrefix + slug.value + "/"
  {
    if StartsWith(href, ContestPrefix) then
      var rest := href[|ContestPrefix|..];
      var body := if rest != [] && rest[|rest| - 1] == '/' then rest[..|rest| - 1] else rest;
      assert href == ContestPrefix + rest;
      assert rest != [] && rest[|rest| - 1] == '/' ==> rest == body + "/";
      if body != [] && '/' !in body then Some(body) else None
    else None
  }

  /** Every non-empty slug without `/` is recognised in both href forms: the matcher's converse. */
  lemma ContestHrefRoundTrip(slug: string)
    requires slug != [] && '/' !in slug
    ensures MatchContestHref(ContestPrefix + slug) == Some(slug)
    ensures MatchContestHref(ContestPrefix + slug + "/") == Some(slug)
  {
    var h1 := ContestPrefix + slug;
    assert h1[|ContestPrefix|..] == slug;
    var h2 := ContestPrefix + slug + "/";
    assert h2[|ContestPrefix|..] == slug + "/";
    assert (slug + "/")[..|slug|] == slug;
  }

  /** The card name: the trimmed heading when non-empty, else the first 80 characters of the trimmed card text. */
  function CardName(card: Card): (name: string)
    ensures card.heading.Some? && Trim(card.heading.value) != [] ==> name == Trim(card.heading.value)
    ensures !(card.heading.Some? && Trim(card.heading.value) != []) ==>
      |name| <= NameLimit && StartsWith(Trim(card.text), name) && (|name| < NameLimit ==> name == Trim(card.text))
  {
    if card.heading.Some? && Trim(card.heading.value) != [] then Trim(card.heading.value)
    else
      var t := Trim(card.text);
      if |t| <= NameLimit then t else t[..NameLimit]
  }

  /** `a.getAttribute("href") || ""`. */
  function Href(card: Card): string {
    card.href.GetOr("")
  }

  /** One card of scrap-contest.js: a contest exactly when its href matches. */
  function CardContest(card: Card): (c: Option<Contest>)
    ensures c.Some? <==> MatchContestHref(Href(card)).Some?
    ensures c.Some? ==> c.value.href == Href(card) && Some(c.value.slug) == MatchContestHref(Href(card))
  {
    match MatchContestHref(Href(card))
    case Some(slug) => Some(Contest(CardName(card), slug, Href(card)))
    case None => None
  }

  /** The contests of the page, in card order; cards whose href does not match are dropped. */
  function ScrapeContests(cards: seq<Card>): (cs: seq<Contest>)
    ensures |cs| <= |cards|
    ensures forall c :: c in cs ==> c.slug != [] && '/' !in c.slug && MatchContestHref(c.href) == Some(c.slug)
  {
    Seqs.FilterMap(cards, CardContest)
  }

  /** Contest `k` comes from the `k`-th card whose href matches, and every matching card yields one. */
  lemma ScrapeContestsByCard(cards: seq<Card>)
    ensures var cs := ScrapeContests(cards); var ks := Seqs.KeptIndices(cards, CardContest);
      && |cs| == |ks|
      && (forall k :: 0 <= k < |cs| ==> cs[k] == Contest(CardName(cards[ks[k]]), cs[k].slug, Href(cards[ks[k]])))
      && (forall i :: 0 <= i < |cards| && MatchContestHref(Href(cards[i])).Some? ==> i in ks)
      && (forall k, l :: 0 <= k < l < |ks| ==> ks[k] < ks[l])
  {
    Seqs.FilterMapByIndices(cards, CardContest);
  }

  /** Number of leading decimal digits. */
  function LeadingDigits(s: string): (k: nat)
    ensures k <= |s| && AllDigits(s[..k]) && (k == |s| || !IsDigit(s[k]))
  {
    if s != [] && IsDigit(s[0]) then
      var k := 1 + LeadingDigits(s[1..]);
      assert s[1..][..k - 1] == s[1..k];
      k
    else 0
  }

  /** `s` without its leading whitespace (`\s*`). */
  function SkipSpaces(s: string): (r: string)
    ensures r == s[LeadingSpaces(s)..]
  {
    s[LeadingSpaces(s)..]
  }

  /** The badge pattern `^\s*\d+\s*\/\s*\d+\s*$` on `t`, scanned left to right.  Digits, whitespace and `/`
      are disjoint classes, so the greedy scan is the only way the expression can match. */
  predicate BadgePattern(t: string) {
    Numerator(SkipSpaces(t))
  }

  /** `\d+` then the rest of the pattern. */
  predicate Numerator(r: string) {
    var n := LeadingDigits(r);
    n > 0 && Slash(SkipSpaces(r[n..]))
  }

  /** `\/` then the rest of the pattern. */
  predicate Slash(r: string) {
    r != [] && r[0] == '/' && Denominator(SkipSpaces(r[1..]))
  }

  /** `\d+\s*$`. */
  predicate Denominator(r: string) {
    var n := LeadingDigits(r);
    n > 0 && AllSpace(r[n..])
  }

  /** A whitespace run is skipped exactly up to the first other character. */
  lemma SkipSpacesOver(w: string, rest: string)
    requires AllSpace(w) && (rest == [] || !IsSpace(rest[0]))
    ensures SkipSpaces(w + rest) == rest
  {
    assert (w + rest)[|w|..] == rest;
  }

  lemma {:induction false} LeadingDigitsOver(d: string, rest: string)
    requires AllDigits(d) && (rest == [] || !IsDigit(rest[0]))
    ensures LeadingDigits(d + rest) == |d|
  {
    if d != [] {
      assert (d + rest)[1..] == d[1..] + rest;
      LeadingDigitsOver(d[1..], rest);
    } else {
      assert d + rest == rest;
    }
  }

  predicate IsBadgeShape(w0: string, d1: string, w1: string, w2: string, d2: string, w3: string) {
    AllSpace(w0) && AllDigits(d1) && d1 != [] && AllSpace(w1) && AllSpace(w2) && AllDigits(d2) && d2 != [] && AllSpace(w3)
  }

  lemma DenominatorOf(d: string, w: string)
    requires AllDigits(d) && d != [] && AllSpace(w)
    ensures Denominator(d + w)
  {
    LeadingDigitsOver(d, w);
    assert (d + w)[|d|..] == w;
  }

  lemma SlashOf(w: string, r: string)
    requires AllSpace(w) && Denominator(r)
    ensures Slash("/" + (w + r))
  {
    SkipSpacesOver(w, r);
    assert ("/" + (w + r))[1..] == w + r;
  }

  lemma NumeratorOf(d: string, w: string, r: string)
    requires AllDigits(d) && d != [] && AllSpace(w) && Slash(r)
    ensures Numerator(d + (w + r))
  {
    LeadingDigitsOver(d, w + r);
    assert (d + (w + r))[|d|..] == w + r;
    SkipSpacesOver(w, r);
  }

  lemma PatternOf(w: string, r: string)
    requires AllSpace(w) && Numerator(r)
    ensures BadgePattern(w + r)
  {
    SkipSpacesOver(w, r);
  }

  /** The text `w0 d1 w1 / w2 d2 w3`, pieces concatenated. */
  function BadgeShaped(w0: string, d1: string, w1: string, w2: string, d2: string, w3: string): string {
    w0 + (d1 + (w1 + ("/" + (w2 + (d2 + w3)))))
  }

  /** Every text of the regular expression's shape is accepted. */
  lemma BadgePatternComplete(w0: string, d1: string, w1: string, w2: string, d2: string, w3: string)
    requires IsBadgeShape(w0, d1, w1, w2, d2, w3)
    ensures BadgePattern(BadgeShaped(w0, d1, w1, w2, d2, w3))
  {
    DenominatorOf(d2, w3);
    SlashOf(w2, d2 + w3);
    NumeratorOf(d1, w1, "/" + (w2 + (d2 + w3)));
    PatternOf(w0, d1 + (w1 + ("/" + (w2 + (d2 + w3)))));
  }

  lemma DenominatorParts(r: string) returns (d: string, w: string)
    requires Denominator(r)
    ensures AllDigits(d) && d != [] && AllSpace(w) && r == d + w
  {
    var n := LeadingDigits(r);
    d, w := r[..n], r[n..];
  }

  lemma SlashParts(r: string) returns (w: string, rest: string)
    requires Slash(r)
    ensures AllSpace(w) && Denominator(rest) && r == "/" + (w + rest)
  {
    var t := r[1..];
    w, rest := t[..LeadingSpaces(t)], SkipSpaces(t);
    assert t == w + rest;
  }

  lemma NumeratorParts(r: string) returns (d: string, w: string, rest: string)
    requires Numerator(r)
    ensures AllDigits(d) && d != [] && AllSpace(w) && Slash(rest) && r == d + (w + rest)
  {
    var n := LeadingDigits(r);
    var t := r[n..];
    d, w, rest := r[..n], t[..LeadingSpaces(t)], SkipSpaces(t);
    assert t == w + rest;
    assert r == d + t;
  }

  /** Every accepted text has the regular expression's shape: the pieces are returned. */
  lemma BadgePatternSound(t: string) returns (w0: string, d1: string, w1: string, w2: string, d2: string, w3: string)
    requires BadgePattern(t)
    ensures IsBadgeShape(w0, d1, w1, w2, d2, w3) && t == BadgeShaped(w0, d1, w1, w2, d2, w3)
  {
    var r1 := SkipSpaces(t);
    w0 := t[..LeadingSpaces(t)];
    assert t == w0 + r1;
    var r2, r3;
    d1, w1, r2 := NumeratorParts(r1);
    w2, r3 := SlashParts(r2);
    d2, w3 := DenominatorParts(r3);
  }

  /** The recogniser accepts exactly the texts of the regular expression's shape. */
  lemma BadgePatternExact(t: string)
    ensures BadgePattern(t) <==>
      exists w0, d1, w1, w2, d2, w3 :: IsBadgeShape(w0, d1, w1, w2, d2, w3) && t == BadgeShaped(w0, d1, w1, w2, d2, w3)
  {
    if BadgePattern(t) {
      var w0, d1, w1, w2, d2, w3 := BadgePatternSound(t);
    }
    if exists w0, d1, w1, w2, d2, w3 :: IsBadgeShape(w0, d1, w1, w2, d2, w3) && t == BadgeShaped(w0, d1, w1, w2, d2, w3) {
      var w0, d1, w1, w2, d2, w3 :| IsBadgeShape(w0, d1, w1, w2, d2, w3) && t == BadgeShaped(w0, d1, w1, w2, d2, w3);
      BadgePatternComplete(w0, d1, w1, w2, d2, w3);
    }
  }

  /** The test `find` applies to each span: the trimmed text matches the badge pattern. */
  predicate IsBadgeSpan(text: string) {
    BadgePattern(Trim(text))
  }

  /** The span chosen by `Array.from(a.querySelectorAll("span")).find(...)`: the first whose
      trimmed text matches, or none. */
  function FindBadge(spans: seq<string>): (r: Option<nat>)
    ensures r.Some? ==> r.value < |spans| && IsBadgeSpan(spans[r.value])
    ensures r.Some? ==> forall j :: 0 <= j < r.value ==> !IsBadgeSpan(spans[j])
    ensures r.None? ==> forall j :: 0 <= j < |spans| ==> !IsBadgeSpan(spans[j])
  {
    Seqs.Find(spans, IsBadgeSpan)
  }

  /** One card of the badge script: the same contest, plus its badge span. */
  function CardBadgeContest(card: Card): (c: Option<BadgeContest>)
    ensures c.Some? <==> CardContest(card).Some?
    ensures c.Some? ==> c.value.contest == CardContest(card).value && c.value.badge == FindBadge(card.spans)
  {
    match CardContest(card)
    case Some(contest) => Some(BadgeContest(contest, FindBadge(card.spans)))
    case None => None
  }

  /** The badge script keeps exactly the contests scrap-contest.js keeps, in the same order. */
  lemma BadgeScrapeAgrees(cards: seq<Card>)
    ensures var bs := Seqs.FilterMap(cards, CardBadgeContest);
      |bs| == |ScrapeContests(cards)| && forall k :: 0 <= k < |bs| ==> bs[k].contest == ScrapeContests(cards)[k]
  {
    Seqs.FilterMapByIndices(cards, CardBadgeContest);
    Seqs.FilterMapByIndices(cards, CardContest);
    assert Seqs.KeptIndices(cards, CardBadgeContest) == Seqs.KeptIndices(cards, CardContest) by {
      KeptIndicesAgree(cards);
    }
  }

  lemma {:induction false} KeptIndicesAgree(cards: seq<Card>)
    ensures Seqs.KeptIndices(cards, CardBadgeContest) == Seqs.KeptIndices(cards, CardContest)
  {
    if cards != [] {
      KeptIndicesAgree(cards[..|cards| - 1]);
    }
  }
}

=== FILE: contest_check.dfy ===
/** contest-question-status.js: `checkContestSolved(contestInput)` normalises its input to a
    contest slug, fetches the contest info, and queries the questions' statuses one after
    another; the first failed request rejects the whole call. */
module ContestCheck {
  import opened Wrappers
  import ContestInput
  import ContestApi
  import Endpoints
  import SolvedReport

  /** One element of the returned `results`. */
  datatype StatusRow = StatusRow(
    id: string, title: string, slug: string, difficulty: string,
    solved: bool, status: Option<string>, url: string)

  /** The object `getProblemStatus` builds for the requested `titleSlug`. */
  function CheckRow(titleSlug: string, q: Option<Endpoints.QuestionData>): (row: StatusRow)
    ensures row.url == Endpoints.ProblemUrl(titleSlug)
    ensures row.status == Endpoints.StatusOf(q)
    ensures row.solved <==> row.status.Some? && row.status.value in Endpoints.AcSpellings
    ensures q.None? || q.value.titleSlug.None? ==> row.slug == titleSlug
    ensures q.Some? && q.value.titleSlug.Some? ==> row.slug == q.value.titleSlug.value
    ensures q.None? ==> row.title == ContestApi.UnknownTitle && row.id == "" && row.difficulty == ""
    ensures q.Some? ==> && row.title == q.value.title.GetOr(ContestApi.UnknownTitle)
                        && row.id == q.value.questionFrontendId.GetOr("")
                        && row.difficulty == q.value.difficulty.GetOr("")
  {
    var status := Endpoints.StatusOf(q);
    match q
    case None => StatusRow("", ContestApi.UnknownTitle, titleSlug, "", Endpoints.IsSolved(status), status, Endpoints.ProblemUrl(titleSlug))
    case Some(data) =>
      StatusRow(data.questionFrontendId.GetOr(""), data.title.GetOr(ContestApi.UnknownTitle), data.titleSlug.GetOr(titleSlug),
                data.difficulty.GetOr(""), Endpoints.IsSolved(status), status, Endpoints.ProblemUrl(titleSlug))
  }

  /** The row agrees with the status detail scrap-contest.js builds from the same answer in
      every field but the slug, which here prefers the answer's own `titleSlug`. */
  lemma CheckRowAgreesWithDetail(titleSlug: string, q: Option<Endpoints.QuestionData>)
    ensures var row, d := CheckRow(titleSlug, q), SolvedReport.Detail(titleSlug, q);
      && row.id == d.frontendId && row.title == d.title && row.difficulty == d.difficulty
      && row.solved == d.solved && row.status == d.status && row.url == d.url
      && (row.slug == d.titleSlug <==> q.None? || q.value.titleSlug.None? || q.value.titleSlug.value == titleSlug)
  {
  }

  /** `await getProblemStatus(titleSlug)`: the row, or the error it throws. */
  function QueryStatus(titleSlug: string, statusOf: string -> Endpoints.Reply<Option<Endpoints.QuestionData>>): (r: Result<StatusRow, string>)
    ensures r.Success? <==> statusOf(titleSlug).Body?
    ensures r.Failure? ==> r.error == Endpoints.Await(Endpoints.GraphQL, titleSlug, statusOf(titleSlug)).error
    ensures r.Success? ==> r.value == CheckRow(titleSlug, statusOf(titleSlug).json)
  {
    match Endpoints.Await(Endpoints.GraphQL, titleSlug, statusOf(titleSlug))
    case Failure(e) => Failure(e)
    case Success(data) => Success(CheckRow(titleSlug, data))
  }

  /** The sequential loop: one request per question, in order, stopping at the first throw.
      `requested` lists the slugs whose status was asked for. */
  method CheckStatuses(questions: seq<ContestApi.Question>, statusOf: string -> Endpoints.Reply<Option<Endpoints.QuestionData>>)
    returns (r: Result<seq<StatusRow>, string>, requested: seq<string>)
    ensures |requested| <= |questions|
    ensures forall k :: 0 <= k < |requested| ==> requested[k] == questions[k].titleSlug
    ensures r.Success? <==> forall k :: 0 <= k < |questions| ==> statusOf(questions[k].titleSlug).Body?
    ensures r.Success? ==> |requested| == |questions| && |r.value| == |questions|
    ensures r.Success? ==> forall k :: 0 <= k < |questions| ==>
      r.value[k] == CheckRow(questions[k].titleSlug, statusOf(questions[k].titleSlug).json)
    ensures r.Failure? ==> requested != [] && forall k :: 0 <= k < |requested| - 1 ==> statusOf(requested[k]).Body?
    ensures r.Failure? ==> var last := requested[|requested| - 1];
      !statusOf(last).Body? && r.error == Endpoints.Await(Endpoints.GraphQL, last, statusOf(last)).error
  {
    var results: seq<StatusRow> := [];
    requested := [];
    var i := 0;
    while i < |questions|
      invariant i <= |questions| && |results| == i && |requested| == i
      invariant forall k :: 0 <= k < i ==> requested[k] == questions[k].titleSlug
      invariant forall k :: 0 <= k < i ==> statusOf(questions[k].titleSlug).Body?
      invariant forall k :: 0 <= k < i ==> results[k] == CheckRow(questions[k].titleSlug, statusOf(questions[k].titleSlug).json)
    {
      var slug := questions[i].titleSlug;
      requested := requested + [slug];
      var answer := QueryStatus(slug, statusOf);
      if answer.Failure? {
        return Failure(answer.error), requested;
      }
      results := results + [answer.value];
      i := i + 1;
    }
    r := Success(results);
  }

  /** Why `checkContestSolved` rejects. */
  datatype CheckError =
    | BadInput(error: ContestInput.InputError)  // no contest slug could be derived from the input
    | Thrown(message: string)                   // `String(e)` of a failed request

  /** The whole function, the input's URL parser and the two endpoints given as functions.
      `requested` lists the slugs whose status was asked for. */
  method CheckContestSolved(input: Option<string>, pathnameOf: string -> Result<string, string>,
                            infoOf: string -> Endpoints.Reply<ContestApi.InfoBody>,
                            statusOf: string -> Endpoints.Reply<Option<Endpoints.QuestionData>>)
    returns (r: Result<seq<StatusRow>, CheckError>, requested: seq<string>)
    ensures ContestInput.ContestSlug(input, pathnameOf).Failure? ==>
      r == Failure(BadInput(ContestInput.ContestSlug(input, pathnameOf).error)) && requested == []
    ensures ContestInput.ContestSlug(input, pathnameOf).Success? ==> var slug := ContestInput.ContestSlug(input, pathnameOf).value;
      && (!infoOf(slug).Body? ==> r == Failure(Thrown(Endpoints.Await(Endpoints.ContestApi, slug, infoOf(slug)).error)) && requested == [])
      && (infoOf(slug).Body? ==> var qs := ContestApi.Extract(infoOf(slug).json, ContestApi.CheckScheme);
            && |requested| <= |qs|
            && (forall k :: 0 <= k < |requested| ==> requested[k] == qs[k].titleSlug)
            && (r.Success? <==> forall k :: 0 <= k < |qs| ==> statusOf(qs[k].titleSlug).Body?)
            && (r.Success? ==> |requested| == |qs|)
            && (r.Success? ==> |r.value| == |qs| && forall k :: 0 <= k < |qs| ==>
                  r.value[k] == CheckRow(qs[k].titleSlug, statusOf(qs[k].titleSlug).json))
            && (r.Failure? ==> requested != [] && forall k :: 0 <= k < |requested| - 1 ==> statusOf(requested[k]).Body?)
            && (r.Failure? ==> var last := requested[|requested| - 1];
                  !statusOf(last).Body? && r.error == Thrown(Endpoints.Await(Endpoints.GraphQL, last, statusOf(last)).error)))
  {
    requested := [];
    match ContestInput.ContestSlug(input, pathnameOf)
    case Failure(e) =>
      r := Failure(BadInput(e));
    case Success(slug) =>
      match Endpoints.Await(Endpoints.ContestApi, slug, infoOf(slug))
      case Failure(e) =>
        r := Failure(Thrown(e));
      case Success(info) =>
        var questions := ContestApi.Extract(info, ContestApi.CheckScheme);
        if questions == [] {
          r := Success([]);
        } else {
          var statuses;
          statuses, requested := CheckStatuses(questions, statusOf);
          match statuses
          case Failure(e) => r := Failure(Thrown(e));
          case Success(rows) => r := Success(rows);
        }
  }
}

=== FILE: contest_input.dfy ===
/** The contest input accepted by `checkContestSolved`: a bare slug, `/contest/<slug>/`,
    or a full contest URL, normalised to the contest slug. */
module ContestInput {
  import opened Wrappers
  import opened Text
  import ContestCards

  /** Inputs containing this text are parsed as URLs. */
  const UrlMarker: string := "leetcode.com/contest/"

  datatype InputError =
    | InvalidContestInput     // the normalised slug is empty
    | UrlRejected(reason: string)  // `new URL(input)` threw; `String(e)` of that error

  /** Number of leading characters other than `/` (`[^/]*`). */
  function LeadingNonSlash(s: string): (k: nat)
    ensures k <= |s| && '/' !in s[..k] && (k == |s| || s[k] == '/')
  {
    if s != [] && s[0] != '/' then
      var k := 1 + LeadingNonSlash(s[1..]);
      assert s[..k] == [s[0]] + s[1..][..k - 1];
      k
    else 0
  }

  /** The capture of `\/contest\/([^/]+)\/?` when the match starts at `pos`. */
  function SegmentAt(path: string, pos: nat): (slug: Option<string>)
    ensures slug.Some? ==> slug.value != [] && '/' !in slug.value
    ensures slug.Some? ==> OccursAt(path, ContestCards.ContestPrefix + slug.value, pos)
    ensures slug.Some? ==> var end := pos + |ContestCards.ContestPrefix| + |slug.value|; end == |path| || path[end] == '/'
  {
    var prefix := ContestCards.ContestPrefix;
    if OccursAt(path, prefix, pos) then
      var rest := path[pos + |prefix|..];
      var n := LeadingNonSlash(rest);
      assert path[pos..pos + |prefix| + n] == prefix + rest[..n];
      if n > 0 then Some(rest[..n]) else None
    else None
  }

  /** The leftmost position at or after `from` where the unanchored expression matches. */
  function FirstSegment(path: string, from: nat := 0): (pos: Option<nat>)
    ensures pos.Some? ==> from <= pos.value < |path| && SegmentAt(path, pos.value).Some?
    ensures pos.Some? ==> forall p :: from <= p < pos.value ==> SegmentAt(path, p).None?
    ensures pos.None? ==> forall p :: from <= p ==> SegmentAt(path, p).None?
    decreases |path| - from
  {
    if from >= |path| then None
    else if SegmentAt(path, from).Some? then Some(from)
    else FirstSegment(path, from + 1)
  }

  /** The URL branch's slug: the capture of the leftmost unanchored `/contest/<segment>` match
      in the pathname, or the empty string when the pathname has none. */
  function PathSlug(path: string): (slug: string)
    ensures slug != [] ==> '/' !in slug && FirstSegment(path).Some? && SegmentAt(path, FirstSegment(path).value) == Some(slug)
    ensures slug == [] <==> forall p :: SegmentAt(path, p).None?
  {
    match FirstSegment(path)
    case Some(pos) => SegmentAt(path, pos).value
    case None => ""
  }

  /** A contest path yields its segment, whatever follows a `/`. */
  lemma PathSlugOfContestPath(slug: string, rest: string)
    requires slug != [] && '/' !in slug && (rest == [] || rest[0] == '/')
    ensures PathSlug(ContestCards.ContestPrefix + slug + rest) == slug
  {
    var path := ContestCards.ContestPrefix + slug + rest;
    var prefix := ContestCards.ContestPrefix;
    assert OccursAt(path, prefix, 0);
    var tail := path[|prefix|..];
    assert tail == slug + rest;
    assert LeadingNonSlash(tail) == |slug|;
    assert tail[..|slug|] == slug;
    assert FirstSegment(path) == Some(0);
  }

  /** The non-URL branch: the trimmed input without one leading `/contest/` and then without
      one trailing `/`. */
  function StripInput(input: string): (slug: string)
    ensures |slug| <= |Trim(input)|
    ensures var t := Trim(input);
      var rest := if StartsWith(t, ContestCards.ContestPrefix) then t[|ContestCards.ContestPrefix|..] else t;
      && (rest == slug || rest == slug + "/")
      && (rest != [] && rest[|rest| - 1] == '/' ==> rest == slug + "/")
  {
    var t := Trim(input);
    var u := if StartsWith(t, ContestCards.ContestPrefix) then t[|ContestCards.ContestPrefix|..] else t;
    if u != [] && u[|u| - 1] == '/' then u[..|u| - 1] else u
  }

  /** The IIFE computing `contestSlug`: `""` for a missing or empty input, the URL path segment when
      the input mentions `leetcode.com/contest/`, else the stripped input.  `pathnameOf` is the URL
      parser: the `pathname` of `new URL(input)`, or the rendered error it throws. */
  function SlugFromInput(input: Option<string>, pathnameOf: string -> Result<string, string>): (r: Result<string, InputError>)
    ensures (input.None? || input == Some("")) ==> r == Success("")
    ensures r.Failure? <==> input.Some? && input.value != "" && Contains(input.value, UrlMarker) && pathnameOf(input.value).Failure?
    ensures r.Failure? ==> r.error == UrlRejected(pathnameOf(input.value).error)
  {
    match input
    case None => Success("")
    case Some(text) =>
      if text == "" then Success("")
      else if Contains(text, UrlMarker) then
        match pathnameOf(text)
        case Success(path) => Success(PathSlug(path))
        case Failure(reason) => Failure(UrlRejected(reason))
      else Success(StripInput(text))
  }

  /** `contestSlug` followed by the guard that throws "Invalid contest input" on an empty slug. */
  function ContestSlug(input: Option<string>, pathnameOf: string -> Result<string, string>): (r: Result<string, InputError>)
    ensures r.Success? ==> r.value != []
    ensures (input.None? || input == Some("")) ==> r == Failure(InvalidContestInput)
    ensures input.Some? && input.value != "" && !Contains(input.value, UrlMarker) ==>
      r == (if StripInput(input.value) == [] then Failure(InvalidContestInput) else Success(StripInput(input.value)))
    ensures input.Some? && Contains(input.value, UrlMarker) && pathnameOf(input.value).Success? ==>
      (r.Success? <==> FirstSegment(pathnameOf(input.value).value).Some?)
    ensures input.Some? && Contains(input.value, UrlMarker) ==>
      r == (match pathnameOf(input.value)
            case Failure(reason) => Failure(UrlRejected(reason))
            case Success(path) => if PathSlug(path) == [] then Failure(InvalidContestInput) else Success(PathSlug(path)))
  {
    match SlugFromInput(input, pathnameOf)
    case Failure(e) => Failure(e)
    case Success(slug) => if slug == [] then Failure(InvalidContestInput) else Success(slug)
  }

  /** A slash-free text never contains the URL marker. */
  lemma NoSlashNoMarker(x: string)
    requires '/' !in x
    ensures !Contains(x, UrlMarker)
  {
    forall i | 0 <= i <= |x| - |UrlMarker|
      ensures !OccursAt(x, UrlMarker, i)
    {
      assert x[i..i + |UrlMarker|][12] == x[i + 12] != UrlMarker[12];
    }
  }

  /** `/contest/<slug>/` never contains the URL marker. */
  lemma ContestPathNoMarker(slug: string)
    requires '/' !in slug
    ensures !Contains(ContestCards.ContestPrefix + slug + "/", UrlMarker)
  {
    var x := ContestCards.ContestPrefix + slug + "/";
    forall i | 0 <= i <= |x| - |UrlMarker|
      ensures !OccursAt(x, UrlMarker, i)
    {
      assert x[i + 12] == slug[i + 3];
      assert x[i..i + |UrlMarker|][12] == x[i + 12] != UrlMarker[12];
    }
  }

  /** A bare slug, padded with whitespace or not, normalises to itself. */
  lemma BareSlugRoundTrip(slug: string, front: string, back: string, pathnameOf: string -> Result<string, string>)
    requires slug != [] && '/' !in slug && Trimmed(slug) && AllSpace(front) && AllSpace(back)
    ensures ContestSlug(Some(front + slug + back), pathnameOf) == Success(slug)
  {
    var x := front + slug + back;
    TrimPadded(front, slug, back);
    assert '/' !in x by {
      assert '/' !in front && '/' !in back;
    }
    NoSlashNoMarker(x);
    assert x != "";
    assert StripInput(x) == slug by {
      assert !StartsWith(slug, ContestCards.ContestPrefix) by {
        assert |slug| < |ContestCards.ContestPrefix| || slug[0] != ContestCards.ContestPrefix[0];
      }
      assert slug[|slug| - 1] != '/';
    }
  }

  lemma StripContestPath(slug: string)
    requires slug != [] && '/' !in slug
    ensures StripInput(ContestCards.ContestPrefix + slug + "/") == slug
  {
    var x := ContestCards.ContestPrefix + slug + "/";
    TrimPadded([], x, []);
    assert [] + x + [] == x;
    var t := Trim(x);
    assert t == x;
    assert StartsWith(t, ContestCards.ContestPrefix);
    var u := t[|ContestCards.ContestPrefix|..];
    assert u == slug + "/";
    assert u[..|u| - 1] == slug;
  }

  /** `/contest/<slug>/` normalises to the slug. */
  lemma ContestPathRoundTrip(slug: string, pathnameOf: string -> Result<string, string>)
    requires slug != [] && '/' !in slug
    ensures ContestSlug(Some(ContestCards.ContestPrefix + slug + "/"), pathnameOf) == Success(slug)
  {
    ContestPathNoMarker(slug);
    StripContestPath(slug);
  }

  /** A full contest URL normalises to the segment after `/contest/` in its pathname. */
  lemma UrlRoundTrip(input: string, slug: string, rest: string, pathnameOf: string -> Result<string, string>)
    requires Contains(input, UrlMarker)
    requires slug != [] && '/' !in slug && (rest == [] || rest[0] == '/')
    requires pathnameOf(input) == Success(ContestCards.ContestPrefix + slug + rest)
    ensures ContestSlug(Some(input), pathnameOf) == Success(slug)
  {
    PathSlugOfContestPath(slug, rest);
  }
}

=== FILE: endpoints.dfy ===
/** The two remote endpoints as the scripts see them: an awaited `fetch` + `res.json()` either
    rejects, answers with a non-ok status, or yields a decoded body; and the solved flag derived
    from the GraphQL `status` field. */
module Endpoints {
  import opened Wrappers
  import opened Text

  /** One `fetch` round trip: a rejected promise (network failure, undecodable JSON) with its
      rendered error, a response whose `ok` is false, or the decoded JSON body. */
  datatype Reply<T> = Rejected(reason: string) | NotOk(status: nat) | Body(json: T)

  /** `data?.data?.question` of the `questionData` query; every field may be null or missing. */
  datatype QuestionData = QuestionData(
    title: Option<string>,
    titleSlug: Option<string>,
    status: Option<string>,
    difficulty: Option<string>,
    questionFrontendId: Option<string>)

  /** `String(new Error(message))`. */
  function ErrorText(message: string): string {
    "Error: " + message
  }

  /** Awaiting a reply: a decoded body is the value; a non-ok status throws an error naming the
      endpoint, the HTTP status and the requested id; a rejection passes its reason through. */
  function Await<T>(endpoint: string, id: string, reply: Reply<T>): (r: Result<T, string>)
    ensures r.Success? <==> reply.Body?
    ensures reply.Body? ==> r.value == reply.json
    ensures reply.Rejected? ==> r.error == reply.reason
    ensures reply.NotOk? ==> r.error == ErrorText(endpoint + " HTTP " + NatToString(reply.status) + " for " + id)
  {
    match reply
    case Rejected(reason) => Failure(reason)
    case NotOk(status) => Failure(ErrorText(endpoint + " HTTP " + NatToString(status) + " for " + id))
    case Body(json) => Success(json)
  }

  const ContestApi: string := "Contest API"
  const GraphQL: string := "GraphQL"

  /** `q?.status ?? null`. */
  function StatusOf(q: Option<QuestionData>): Option<string> {
    if q.Some? then q.value.status else None
  }

  /** The spellings of the accepted status: exactly the strings ASCII lower-casing maps to `"ac"`. */
  const AcSpellings: set<string> := {"ac", "aC", "Ac", "AC"}

  lemma LowerIsAc(s: string)
    ensures Lower(s) == "ac" <==> s in AcSpellings
  {
    if |s| == 2 {
      assert Lower(s) == [LowerChar(s[0]), LowerChar(s[1])];
      if Lower(s) == "ac" {
        assert s[0] == 'a' || s[0] == 'A';
        assert s[1] == 'c' || s[1] == 'C';
        assert s == [s[0], s[1]];
      }
    } else {
      assert |Lower(s)| != |"ac"|;
    }
  }

  /** A question is solved when its status, lower-cased, is `ac`; a null, missing or empty status
      is unsolved. */
  function IsSolved(status: Option<string>): (solved: bool)
    ensures solved <==> status.Some? && status.value in AcSpellings
  {
    var text := if status.Some? && status.value != "" then status.value else "";
    LowerIsAc(text);
    Lower(text) == "ac"
  }

  /** The literal cases: `"AC"` and `"ac"` are solved, `"notac"` and `null` are not. */
  lemma IsSolvedExamples()
    ensures IsSolved(Some("AC")) && IsSolved(Some("ac"))
    ensures !IsSolved(Some("notac")) && !IsSolved(None)
  {
    assert "notac" !in AcSpellings by {
      assert |"notac"| == 5;
    }
  }

  const ProblemsBase: string := "https://leetcode.com/problems/"

  /** `https://leetcode.com/problems/${titleSlug}/`. */
  function ProblemUrl(titleSlug: string): (url: string)
    ensures |url| == |ProblemsBase| + |titleSlug| + 1 && StartsWith(url, ProblemsBase)
    ensures url[|ProblemsBase|..|url| - 1] == titleSlug && url[|url| - 1] == '/'
  {
    ProblemsBase + titleSlug + "/"
  }

  /** The problem URL determines the slug it was built from. */
  lemma ProblemUrlInjective(a: string, b: string)
    requires ProblemUrl(a) == ProblemUrl(b)
    ensures a == b
  {
    var ua, ub := ProblemUrl(a), ProblemUrl(b);
    assert a == ua[|ProblemsBase|..|ua| - 1];
  }
}

=== FILE: seqs.dfy ===
/** The `items.map(build).filter(keep)` idiom of the scripts, as one order-preserving filter-map. */
module Seqs {
  import opened Wrappers

  /** Keeps, in order, the images of the elements `f` accepts. */
  function FilterMap<A, B>(s: seq<A>, f: A -> Option<B>): (r: seq<B>)
    ensures |r| <= |s|
    ensures forall y :: y in r ==> exists i :: 0 <= i < |s| && f(s[i]) == Some(y)
  {
    if s == [] then []
    else
      var init := FilterMap(s[..|s| - 1], f);
      assert forall i :: 0 <= i < |s| - 1 ==> s[..|s| - 1][i] == s[i];
      match f(s[|s| - 1])
      case Some(b) => init + [b]
      case None => init
  }

  /** The positions of the elements `f` accepts, in increasing order: an independent reference for `FilterMap`. */
  function KeptIndices<A, B>(s: seq<A>, f: A -> Option<B>): (ks: seq<nat>)
    ensures forall k :: 0 <= k < |ks| ==> ks[k] < |s| && f(s[ks[k]]).Some?
    ensures forall k, l :: 0 <= k < l < |ks| ==> ks[k] < ks[l]
    ensures forall i :: 0 <= i < |s| && f(s[i]).Some? ==> i in ks
  {
    if s == [] then []
    else
      var init := KeptIndices(s[..|s| - 1], f);
      assert forall k :: 0 <= k < |init| ==> init[k] < |s| - 1 && s[init[k]] == s[..|s| - 1][init[k]];
      if f(s[|s| - 1]).Some? then init + [|s| - 1] else init
  }

  /** Element `k` of the filter-map is the image of the `k`-th accepted element. */
  lemma {:induction false} FilterMapByIndices<A, B>(s: seq<A>, f: A -> Option<B>)
    ensures |FilterMap(s, f)| == |KeptIndices(s, f)|
    ensures forall k :: 0 <= k < |FilterMap(s, f)| ==>
      f(s[KeptIndices(s, f)[k]]) == Some(FilterMap(s, f)[k])
  {
    if s != [] {
      var s' := s[..|s| - 1];
      FilterMapByIndices(s', f);
      var init, kinit := FilterMap(s', f), KeptIndices(s', f);
      var r, ks := FilterMap(s, f), KeptIndices(s, f);
      var last := f(s[|s| - 1]);
      assert r == (if last.Some? then init + [last.value] else init);
      assert ks == (if last.Some? then kinit + [|s| - 1] else kinit);
      forall k | 0 <= k < |r|
        ensures f(s[ks[k]]) == Some(r[k])
      {
        if k < |init| {
          assert r[k] == init[k] && ks[k] == kinit[k];
          assert s[kinit[k]] == s'[kinit[k]];
        }
      }
    }
  }

  /** `Array.prototype.find` by position: the first index at or after `from` whose element satisfies `p`. */
  function Find<A>(s: seq<A>, p: A -> bool, from: nat := 0): (r: Option<nat>)
    requires from <= |s|
    ensures r.Some? ==> from <= r.value < |s| && p(s[r.value])
    ensures r.Some? ==> forall j :: from <= j < r.value ==> !p(s[j])
    ensures r.None? ==> forall j :: from <= j < |s| ==> !p(s[j])
    decreases |s| - from
  {
    if from == |s| then None
    else if p(s[from]) then Some(from)
    else Find(s, p, from + 1)
  }

  /** `s.filter(p).length`. */
  function Count<A>(s: seq<A>, p: A -> bool): (c: nat)
    ensures c <= |s|
  {
    if s == [] then 0 else Count(s[..|s| - 1], p) + (if p(s[|s| - 1]) then 1 else 0)
  }

  /** Every element is counted exactly when all satisfy `p`. */
  lemma {:induction false} CountAll<A>(s: seq<A>, p: A -> bool)
    ensures Count(s, p) == |s| <==> forall i :: 0 <= i < |s| ==> p(s[i])
  {
    if s != [] {
      var s' := s[..|s| - 1];
      CountAll(s', p);
      assert forall i :: 0 <= i < |s'| ==> s'[i] == s[i];
    }
  }

  /** Nothing is counted exactly when no element satisfies `p`. */
  lemma {:induction false} CountNone<A>(s: seq<A>, p: A -> bool)
    ensures Count(s, p) == 0 <==> forall i :: 0 <= i < |s| ==> !p(s[i])
  {
    if s != [] {
      var s' := s[..|s| - 1];
      CountNone(s', p);
      assert forall i :: 0 <= i < |s'| ==> s'[i] == s[i];
    }
  }

  /** Counting under a disjunction of exclusive tests adds the two counts. */
  lemma {:induction false} CountSplit<A>(s: seq<A>, p: A -> bool, q: A -> bool, both: A -> bool)
    requires forall x :: both(x) == (p(x) || q(x)) && !(p(x) && q(x))
    ensures Count(s, both) == Count(s, p) + Count(s, q)
  {
    if s != [] {
      CountSplit(s[..|s| - 1], p, q, both);
    }
  }
}

=== FILE: solved_report.dfy ===
/** scrap-contest.js end to end: the contests of the page are fanned out through `mapLimit`
    (3 runners); each fetches its contest info and fans its questions out through a second
    `mapLimit` (6 runners) calling the GraphQL `questionData` query; the reports are printed
    per contest and flattened into one table.  The pacing `sleep`s are left out. */
module SolvedReport {
  import opened Wrappers
  import opened WorkerPool
  import ContestCards
  import ContestApi
  import Endpoints

  const ContestConcurrency: nat := 3

  const NoQuestionsNote: string := "No questions found in contest API response"
  const Tick: string := "\U{2705}"
  const Cross: string := "\U{274C}"

  /** What `getProblemStatus` returns. */
  datatype StatusDetail = StatusDetail(
    titleSlug: string, title: string, frontendId: string, difficulty: string,
    status: Option<string>, solved: bool, url: string)

  /** The object `getProblemStatus` builds from the `question` object of the answer. */
  function Detail(titleSlug: string, q: Option<Endpoints.QuestionData>): (d: StatusDetail)
    ensures d.titleSlug == titleSlug && d.url == Endpoints.ProblemUrl(titleSlug)
    ensures d.status == Endpoints.StatusOf(q)
    ensures d.solved <==> d.status.Some? && d.status.value in Endpoints.AcSpellings
    ensures q.None? ==> d.title == ContestApi.UnknownTitle && d.frontendId == "" && d.difficulty == ""
    ensures q.Some? ==> && d.title == q.value.title.GetOr(ContestApi.UnknownTitle)
                        && d.frontendId == q.value.questionFrontendId.GetOr("")
                        && d.difficulty == q.value.difficulty.GetOr("")
  {
    var status := Endpoints.StatusOf(q);
    match q
    case None => StatusDetail(titleSlug, ContestApi.UnknownTitle, "", "", status, Endpoints.IsSolved(status), Endpoints.ProblemUrl(titleSlug))
    case Some(data) =>
      StatusDetail(titleSlug, data.title.GetOr(ContestApi.UnknownTitle), data.questionFrontendId.GetOr(""),
                   data.difficulty.GetOr(""), status, Endpoints.IsSolved(status), Endpoints.ProblemUrl(titleSlug))
  }

  /** One row of a contest's `problems`. */
  datatype ProblemRow = ProblemRow(
    contestProblemTitle: string, title: string, slug: string, id: string, difficulty: string,
    solved: string, status: Option<string>, url: string)

  /** The inner worker: query the question's status and shape its row; a failed query throws. */
  function ProblemWorker(q: ContestApi.Question, statusOf: string -> Endpoints.Reply<Option<Endpoints.QuestionData>>): (r: Result<ProblemRow, string>)
    ensures r.Success? <==> statusOf(q.titleSlug).Body?
    ensures r.Failure? ==> r.error == Endpoints.Await(Endpoints.GraphQL, q.titleSlug, statusOf(q.titleSlug)).error
    ensures r.Success? ==> r.value.contestProblemTitle == q.title && r.value.slug == q.titleSlug
    ensures r.Success? ==> r.value.url == Endpoints.ProblemUrl(q.titleSlug)
    ensures r.Success? ==> r.value.status == Endpoints.StatusOf(statusOf(q.titleSlug).json)
    ensures r.Success? ==> (r.value.solved == Tick <==> Endpoints.IsSolved(r.value.status))
    ensures r.Success? ==> r.value.solved == Tick || r.value.solved == Cross
    ensures r.Success? ==> var d := Detail(q.titleSlug, statusOf(q.titleSlug).json);
      r.value.title == d.title && r.value.id == d.frontendId && r.value.difficulty == d.difficulty
  {
    match Endpoints.Await(Endpoints.GraphQL, q.titleSlug, statusOf(q.titleSlug))
    case Failure(e) => Failure(e)
    case Success(data) =>
      var st := Detail(q.titleSlug, data);
      Success(ProblemRow(q.title, st.title, st.titleSlug, st.frontendId, st.difficulty,
                         if st.solved then Tick else Cross, st.status, st.url))
  }

  /** One contest's report: its problems, or the empty-result note. */
  datatype ContestReport = ContestReport(contest: string, contestSlug: string, problems: seq<Slot<ProblemRow>>, note: Option<string>)

  /** The outer worker.  The inner `mapLimit` is written as its meaning `MapAll`, which
      `WorkerPool.MapLimit` delivers for every interleaving of its 6 runners. */
  function ContestWorker(c: ContestCards.Contest, infoOf: string -> Endpoints.Reply<ContestApi.InfoBody>,
                         statusOf: string -> Endpoints.Reply<Option<Endpoints.QuestionData>>): (r: Result<ContestReport, string>)
    ensures r.Success? <==> infoOf(c.slug).Body?
    ensures r.Failure? ==> r.error == Endpoints.Await(Endpoints.ContestApi, c.slug, infoOf(c.slug)).error
    ensures r.Success? ==> r.value.contest == c.name && r.value.contestSlug == c.slug
    ensures r.Success? ==> var qs := ContestApi.Extract(infoOf(c.slug).json, ContestApi.ContestScheme);
      && |r.value.problems| == |qs|
      && (r.value.note.Some? <==> qs == [])
      && forall k :: 0 <= k < |qs| ==> r.value.problems[k] == Catch(ProblemWorker(qs[k], statusOf))
  {
    match Endpoints.Await(Endpoints.ContestApi, c.slug, infoOf(c.slug))
    case Failure(e) => Failure(e)
    case Success(info) =>
      var questions := ContestApi.Extract(info, ContestApi.ContestScheme);
      if questions == [] then Success(ContestReport(c.name, c.slug, [], Some(NoQuestionsNote)))
      else Success(ContestReport(c.name, c.slug, MapAll(questions, (q, _) => ProblemWorker(q, statusOf)), None))
  }

  /** The cells of a flat-table row read from one problem slot; reading them from an
      `{__error}` sentinel gives `undefined` everywhere, written `None`. */
  datatype ProblemCells = ProblemCells(problemId: string, difficulty: string, solved: string, title: string, slug: string, url: string)

  datatype FlatRow = FlatRow(contest: string, contestSlug: string, cells: Option<ProblemCells>)

  function Cells(p: Slot<ProblemRow>): Option<ProblemCells> {
    match p
    case Value(row) => Some(ProblemCells(row.id, row.difficulty, row.solved, row.title, row.slug, row.url))
    case ErrorSentinel(_) => None
  }

  /** `rep.problems.map(...)`. */
  function ReportRows(rep: ContestReport): (rows: seq<FlatRow>)
    ensures |rows| == |rep.problems|
    ensures forall j :: 0 <= j < |rows| ==> rows[j] == FlatRow(rep.contest, rep.contestSlug, Cells(rep.problems[j]))
  {
    seq(|rep.problems|, j requires 0 <= j < |rep.problems| => FlatRow(rep.contest, rep.contestSlug, Cells(rep.problems[j])))
  }

  /** Sum of the `problems` lengths. */
  function TotalProblems(reps: seq<ContestReport>): nat {
    if reps == [] then 0 else TotalProblems(reps[..|reps| - 1]) + |reps[|reps| - 1].problems|
  }

  /** `contestReports.flatMap(rep => rep.problems.map(...))`. */
  function FlatRows(reps: seq<ContestReport>): (rows: seq<FlatRow>)
    ensures |rows| == TotalProblems(reps)
  {
    if reps == [] then [] else FlatRows(reps[..|reps| - 1]) + ReportRows(reps[|reps| - 1])
  }

  lemma {:induction false} TotalProblemsPrefix(reps: seq<ContestReport>, i: nat)
    requires i < |reps|
    ensures TotalProblems(reps[..i]) + |reps[i].problems| <= TotalProblems(reps)
    decreases |reps|
  {
    var init := reps[..|reps| - 1];
    if i < |reps| - 1 {
      assert init[..i] == reps[..i];
      TotalProblemsPrefix(init, i);
    } else {
      assert reps[..i] == init;
    }
  }

  /** Row `TotalProblems(reps[..i]) + j` of the flat table is problem `j` of contest `i`:
      the table is ordered contest-major, then by problem. */
  lemma {:induction false} FlatRowsIndex(reps: seq<ContestReport>, i: nat, j: nat)
    requires i < |reps| && j < |reps[i].problems|
    ensures TotalProblems(reps[..i]) + j < |FlatRows(reps)|
    ensures FlatRows(reps)[TotalProblems(reps[..i]) + j] == FlatRow(reps[i].contest, reps[i].contestSlug, Cells(reps[i].problems[j]))
    decreases |reps|
  {
    TotalProblemsPrefix(reps, i);
    var init := reps[..|reps| - 1];
    if i < |reps| - 1 {
      assert init[..i] == reps[..i];
      FlatRowsIndex(init, i, j);
      TotalProblemsPrefix(init, i);
    } else {
      assert reps[..i] == init;
    }
  }

  /** The reports as the print loop sees them: it reads `rep.problems.length` of every report,
      which throws on an `{__error}` sentinel, so the flat table exists only when no contest failed. */
  function PrintedTable(reports: seq<Slot<ContestReport>>): (flat: Option<seq<FlatRow>>)
    ensures flat.Some? <==> forall i :: 0 <= i < |reports| ==> reports[i].Value?
    ensures flat.Some? ==> flat.value == FlatRows(seq(|reports|, i requires 0 <= i < |reports| => reports[i].value))
  {
    if forall i :: 0 <= i < |reports| ==> reports[i].Value? then
      Some(FlatRows(seq(|reports|, i requires 0 <= i < |reports| => reports[i].value)))
    else None
  }

  /** When every contest succeeded, the printed table holds problem `j` of contest `i` at row
      `TotalProblems` of the earlier contests plus `j`. */
  lemma PrintedTableIndex(reports: seq<Slot<ContestReport>>, i: nat, j: nat)
    requires forall k :: 0 <= k < |reports| ==> reports[k].Value?
    requires i < |reports| && j < |reports[i].value.problems|
    ensures var reps := seq(|reports|, k requires 0 <= k < |reports| => reports[k].value);
      && PrintedTable(reports).Some?
      && TotalProblems(reps[..i]) + j < |PrintedTable(reports).value|
      && PrintedTable(reports).value[TotalProblems(reps[..i]) + j]
         == FlatRow(reports[i].value.contest, reports[i].value.contestSlug, Cells(reports[i].value.problems[j]))
  {
    var reps := seq(|reports|, k requires 0 <= k < |reports| => reports[k].value);
    FlatRowsIndex(reps, i, j);
  }

  /** How a run of the script ends. */
  datatype Run =
    | NoContestCards                                   // no card matched the selector: nothing fetched
    | PrintFailed(reports: seq<Slot<ContestReport>>)   // a contest failed and the print loop threw
    | Saved(reports: seq<Slot<ContestReport>>, flat: seq<FlatRow>)  // stored on `window`

  /** The whole script over the cards the selector matched, the two endpoints given as functions. */
  method ScrapContest(cards: seq<ContestCards.Card>, infoOf: string -> Endpoints.Reply<ContestApi.InfoBody>,
                      statusOf: string -> Endpoints.Reply<Option<Endpoints.QuestionData>>) returns (run: Run)
    ensures cards == [] <==> run.NoContestCards?
    ensures !run.NoContestCards? ==> var contests := ContestCards.ScrapeContests(cards);
      && |run.reports| == |contests|
      && forall i :: 0 <= i < |contests| ==> run.reports[i] == Catch(ContestWorker(contests[i], infoOf, statusOf))
    ensures run.Saved? <==> !run.NoContestCards? && forall i :: 0 <= i < |run.reports| ==> run.reports[i].Value?
    ensures run.Saved? ==> PrintedTable(run.reports) == Some(run.flat)
  {
    if cards == [] {
      return NoContestCards;
    }
    var contests := ContestCards.ScrapeContests(cards);
    var reports, _, _ := MapLimit(contests, ContestConcurrency, (c, _) => ContestWorker(c, infoOf, statusOf));
    match PrintedTable(reports)
    case None => run := PrintFailed(reports);
    case Some(flat) => run := Saved(reports, flat);
  }
}

=== FILE: text.dfy ===
/** The string primitives the scripts lean on: `trim`, the `\s` and `\d` classes,
    ASCII lower-casing and the decimal rendering of a template literal `${n}`. */
module Text {

  predicate IsDigit(c: char) {
    '0' <= c <= '9'
  }

  /** ECMAScript WhiteSpace and LineTerminator code points: exactly what `trim` strips and `\s` matches. */
  predicate IsSpace(c: char) {
    var n := c as int;
    || n == 0x09 || n == 0x0A || n == 0x0B || n == 0x0C || n == 0x0D
    || n == 0x20 || n == 0xA0 || n == 0x1680
    || (0x2000 <= n <= 0x200A)
    || n == 0x2028 || n == 0x2029 || n == 0x202F || n == 0x205F || n == 0x3000
    || n == 0xFEFF
  }

  predicate AllDigits(s: string) {
    forall i :: 0 <= i < |s| ==> IsDigit(s[i])
  }

  predicate AllSpace(s: string) {
    forall i :: 0 <= i < |s| ==> IsSpace(s[i])
  }

  /** True when `s` has no whitespace at either end. */
  predicate Trimmed(s: string) {
    s == [] || (!IsSpace(s[0]) && !IsSpace(s[|s| - 1]))
  }

  /** Number of leading whitespace characters. */
  function LeadingSpaces(s: string): (k: nat)
    ensures k <= |s|
    ensures AllSpace(s[..k])
    ensures k == |s| || !IsSpace(s[k])
  {
    if |s| > 0 && IsSpace(s[0]) then
      var k := 1 + LeadingSpaces(s[1..]);
      assert s[1..][..k - 1] == s[1..k];
      k
    else 0
  }

  /** Number of trailing whitespace characters. */
  function TrailingSpaces(s: string): (k: nat)
    ensures k <= |s|
    ensures AllSpace(s[|s| - k..])
    ensures k == |s| || !IsSpace(s[|s| - k - 1])
  {
    if |s| > 0 && IsSpace(s[|s| - 1]) then
      var k := 1 + TrailingSpaces(s[..|s| - 1]);
      assert s[..|s| - 1][|s| - k..] == s[|s| - k..|s| - 1];
      k
    else 0
  }

  /** `String.prototype.trim`: `s` without its whitespace prefix and suffix. */
  function Trim(s: string): (r: string)
    ensures Trimmed(r)
    ensures exists a, b :: 0 <= a <= b <= |s| && r == s[a..b] && AllSpace(s[..a]) && AllSpace(s[b..])
  {
    var a := LeadingSpaces(s);
    var rest := s[a..];
    var b := a + |rest| - TrailingSpaces(rest);
    assert rest[..|rest| - TrailingSpaces(rest)] == s[a..b];
    assert rest[|rest| - TrailingSpaces(rest)..] == s[b..];
    s[a..b]
  }

  /** Trimming undoes whitespace padding: the partner of `Trim`. */
  lemma TrimPadded(front: string, s: string, back: string)
    requires AllSpace(front) && AllSpace(back) && Trimmed(s)
    ensures Trim(front + s + back) == s
  {
    var t := front + s + back;
    var a := LeadingSpaces(t);
    if s != [] {
      assert t[|front|] == s[0];
      assert a == |front|;
      var rest := t[a..];
      assert rest == s + back;
      var k := TrailingSpaces(rest);
      assert rest[|rest| - |back| - 1] == s[|s| - 1];
      assert k == |back|;
    } else {
      assert AllSpace(t);
      assert a == |t|;
    }
  }

  function LowerChar(c: char): char {
    if 'A' <= c <= 'Z' then (c as int + 32) as char else c
  }

  /** ASCII `toLowerCase`. */
  function Lower(s: string): (r: string)
    ensures |r| == |s|
    ensures forall i :: 0 <= i < |s| ==> r[i] == LowerChar(s[i])
  {
    if s == [] then [] else [LowerChar(s[0])] + Lower(s[1..])
  }

  function DigitChar(d: nat): (c: char)
    requires d < 10
    ensures IsDigit(c)
  {
    ('0' as int + d) as char
  }

  function DigitValue(c: char): nat
    requires IsDigit(c)
  {
    c as int - '0' as int
  }

  /** The decimal rendering of `n` produced by a template literal `${n}`. */
  function NatToString(n: nat): (s: string)
    ensures s != [] && AllDigits(s)
    ensures s[0] == '0' ==> n == 0 && s == "0"
  {
    if n < 10 then [DigitChar(n)] else NatToString(n / 10) + [DigitChar(n % 10)]
  }

  /** The value of a string of decimal digits. */
  function DigitsValue(s: string): nat
    requires AllDigits(s)
  {
    if s == [] then 0 else 10 * DigitsValue(s[..|s| - 1]) + DigitValue(s[|s| - 1])
  }

  /** Reading the rendered digits back yields the number: rendering is injective. */
  lemma {:induction false} NatToStringRoundTrip(n: nat)
    ensures DigitsValue(NatToString(n)) == n
  {
    if n >= 10 {
      var s := NatToString(n);
      assert s[..|s| - 1] == NatToString(n / 10);
      NatToStringRoundTrip(n / 10);
    }
  }

  /** `s` occurs somewhere inside `t` (`String.prototype.includes`). */
  predicate Contains(t: string, s: string) {
    exists i :: 0 <= i <= |t| - |s| && OccursAt(t, s, i)
  }

  /** `s` occurs in `t` starting at position `i`. */
  predicate OccursAt(t: string, s: string, i: nat) {
    i + |s| <= |t| && t[i..i + |s|] == s
  }

  /** `t` starts with `s`. */
  predicate StartsWith(t: string, s: string) {
    |s| <= |t| && t[..|s|] == s
  }
}

=== FILE: worker_pool.dfy ===
/** `mapLimit(items, limit, worker)`: `min(limit, n)` cooperative runners share one cursor;
    each claims `idx = i++`, awaits `worker(items[idx], idx)` and stores the value, or
    `{__error: String(e)}` when the worker throws, at `out[idx]`; a runner stops once its
    claim reaches `n`.  Which runner's promise settles next is a nondeterministic choice. */
module WorkerPool {
  import opened Wrappers

  /** One slot of `out`: the worker's value, or the `{__error: String(e)}` sentinel. */
  datatype Slot<+R> = Value(value: R) | ErrorSentinel(error: string)

  /** A runner is awaiting the worker for a claimed index, or has left its loop. */
  datatype Runner = Busy(index: nat) | Finished

  /** The shared cursor `i`, the output array (`None` is a hole), the runners and,
      as an observation, the indices in the order their results were stored. */
  datatype Pool<R> = Pool(cursor: nat, out: seq<Option<Slot<R>>>, runners: seq<Runner>, order: seq<nat>)

  function Min(a: nat, b: nat): nat {
    if a <= b then a else b
  }

  function Max(a: nat, b: nat): nat {
    if a <= b then b else a
  }

  /** Runners `0 .. m-1`, runner `k` awaiting index `k`. */
  function Claimed(m: nat): seq<Runner> {
    seq(m, k requires 0 <= k < m => Busy(k))
  }

  /** The `try`/`catch` around one worker call. */
  function Catch<R>(outcome: Result<R, string>): (s: Slot<R>)
    ensures s.ErrorSentinel? <==> outcome.Failure?
    ensures outcome.Success? ==> s == Value(outcome.value)
    ensures outcome.Failure? ==> s == ErrorSentinel(outcome.error)
  {
    match outcome
    case Success(v) => Value(v)
    case Failure(e) => ErrorSentinel(e)
  }

  /** The reference meaning of `mapLimit`: slot `i` holds the caught outcome of `worker(items[i], i)`. */
  function MapAll<T, R>(items: seq<T>, worker: (T, nat) -> Result<R, string>): seq<Slot<R>> {
    seq(|items|, i requires 0 <= i < |items| => Catch(worker(items[i], i)))
  }

  /** Number of runners currently awaiting a worker: the tasks in flight. */
  function CountBusy(rs: seq<Runner>): (c: nat)
    ensures c <= |rs|
  {
    if rs == [] then 0 else CountBusy(rs[..|rs| - 1]) + (if rs[|rs| - 1].Busy? then 1 else 0)
  }

  lemma {:induction false} CountBusyUpdate(rs: seq<Runner>, j: nat, x: Runner)
    requires j < |rs|
    ensures CountBusy(rs[j := x]) + (if rs[j].Busy? then 1 else 0) == CountBusy(rs) + (if x.Busy? then 1 else 0)
  {
    if j < |rs| - 1 {
      assert rs[j := x][..|rs| - 1] == rs[..|rs| - 1][j := x];
      CountBusyUpdate(rs[..|rs| - 1], j, x);
    } else {
      assert rs[j := x][..|rs| - 1] == rs[..|rs| - 1];
    }
  }

  lemma {:induction false} CountBusyNone(rs: seq<Runner>)
    requires CountBusy(rs) == 0
    ensures forall j :: 0 <= j < |rs| ==> rs[j] == Finished
  {
    if rs != [] {
      CountBusyNone(rs[..|rs| - 1]);
      assert forall j :: 0 <= j < |rs| - 1 ==> rs[..|rs| - 1][j] == rs[j];
    }
  }

  lemma {:induction false} CountBusyAll(m: nat)
    ensures CountBusy(Claimed(m)) == m
  {
    if m > 0 {
      CountBusyAll(m - 1);
      assert Claimed(m)[..m - 1] == Claimed(m - 1);
    }
  }

  /** The pool once `Array.from` has created the runners: each ran synchronously up to its
      first `await`, so runner `k` has claimed index `k` and the cursor stands at `min(limit, n)`. */
  function Start<R>(n: nat, limit: nat): (p: Pool<R>)
    requires limit >= 1
    ensures |p.runners| == Min(limit, n) && p.cursor == |p.runners|
    ensures |p.out| == n && forall i :: 0 <= i < n ==> p.out[i].None?
    ensures n == 0 ==> p.runners == []
    ensures forall k :: 0 <= k < |p.runners| ==> p.runners[k] == Busy(k)
  {
    var m := Min(limit, n);
    Pool(m, seq(n, _ => None), Claimed(m), [])
  }

  /** Runner `r`'s worker settles: the outcome is stored at its own index, then the runner
      synchronously claims the next index, or leaves the loop when that claim is past the end.
      A thrown worker does not stop the runner. */
  function Step<T, R>(items: seq<T>, worker: (T, nat) -> Result<R, string>, p: Pool<R>, r: nat): (q: Pool<R>)
    requires r < |p.runners| && p.runners[r].Busy? && p.runners[r].index < |p.out|
    ensures q.cursor == p.cursor + 1 && |q.out| == |p.out| && |q.runners| == |p.runners|
    ensures q.runners[r] == (if p.cursor < |items| then Busy(p.cursor) else Finished)
    ensures forall j :: 0 <= j < |p.runners| && j != r ==> q.runners[j] == p.runners[j]
    ensures forall i :: 0 <= i < |p.out| && i != p.runners[r].index ==> q.out[i] == p.out[i]
    ensures p.runners[r].index < |items| ==>
      q.out[p.runners[r].index] == Some(Catch(worker(items[p.runners[r].index], p.runners[r].index)))
    ensures q.order == p.order + [p.runners[r].index]
  {
    var idx := p.runners[r].index;
    var slot := if idx < |items| then Catch(worker(items[idx], idx)) else ErrorSentinel("");
    var next := if p.cursor < |items| then Busy(p.cursor) else Finished;
    Pool(p.cursor + 1, p.out[idx := Some(slot)], p.runners[r := next], p.order + [idx])
  }

  /** What holds of the pool between any two settlements. */
  ghost predicate Inv<T, R>(items: seq<T>, worker: (T, nat) -> Result<R, string>, limit: nat, p: Pool<R>) {
    && |p.out| == |items|
    && |p.runners| == Min(limit, |items|)
    && BusyClaims(p)
    && Values(items, worker, p)
    && Coverage(p)
    && Completion(p)
  }

  /** A busy runner holds a claimed, still unfilled index, and no two hold the same one. */
  ghost predicate BusyClaims<R>(p: Pool<R>) {
    && (forall j :: 0 <= j < |p.runners| && p.runners[j].Busy? ==>
          p.runners[j].index < |p.out| && p.runners[j].index < p.cursor && p.out[p.runners[j].index].None?)
    && (forall j, k :: 0 <= j < k < |p.runners| && p.runners[j].Busy? && p.runners[k].Busy? ==>
          p.runners[j].index != p.runners[k].index)
  }

  /** A filled slot holds its own item's outcome. */
  ghost predicate Values<T, R>(items: seq<T>, worker: (T, nat) -> Result<R, string>, p: Pool<R>) {
    forall i :: 0 <= i < |p.out| && i < |items| && p.out[i].Some? ==> p.out[i].value == Catch(worker(items[i], i))
  }

  /** Every claimed index is filled or in flight; nothing past the cursor is filled;
      a runner has left its loop only once the cursor has passed the end. */
  ghost predicate Coverage<R>(p: Pool<R>) {
    && (forall i :: 0 <= i < |p.out| && i < p.cursor ==> p.out[i].Some? || Busy(i) in p.runners)
    && (forall i :: 0 <= i < |p.out| && p.cursor <= i ==> p.out[i].None?)
    && (Finished in p.runners ==> |p.out| <= p.cursor)
  }

  /** The completion order lists each filled slot exactly once. */
  ghost predicate Completion<R>(p: Pool<R>) {
    && (forall k :: 0 <= k < |p.order| ==> p.order[k] < |p.out| && p.out[p.order[k]].Some?)
    && (forall k, l :: 0 <= k < l < |p.order| ==> p.order[k] != p.order[l])
    && (forall i :: 0 <= i < |p.out| && p.out[i].Some? ==> i in p.order)
    && |p.order| + CountBusy(p.runners) == Min(p.cursor, |p.out|)
  }

  /** With a single runner, results are stored strictly in index order. */
  ghost predicate Serial<R>(p: Pool<R>) {
    && (forall k :: 0 <= k < |p.order| ==> p.order[k] == k)
    && (forall j :: 0 <= j < |p.runners| && p.runners[j].Busy? ==> p.runners[j].index == |p.order|)
  }

  lemma StartInv<T, R>(items: seq<T>, worker: (T, nat) -> Result<R, string>, limit: nat)
    requires limit >= 1
    ensures Inv(items, worker, limit, Start<R>(|items|, limit))
    ensures limit == 1 ==> Serial(Start<R>(|items|, limit))
  {
    var p := Start<R>(|items|, limit);
    var m := Min(limit, |items|);
    CountBusyAll(m);
    assert p.runners == Claimed(m) && p.cursor == m && p.order == [];
    assert BusyClaims(p);
    assert Values(items, worker, p);
    assert Completion(p);
    forall i | 0 <= i < |items| && i < p.cursor
      ensures Busy(i) in p.runners
    {
      assert p.runners[i] == Busy(i);
    }
  }

  lemma StepBusyClaims<T, R>(items: seq<T>, worker: (T, nat) -> Result<R, string>, limit: nat, p: Pool<R>, r: nat)
    requires Inv(items, worker, limit, p)
    requires r < |p.runners| && p.runners[r].Busy?
    ensures BusyClaims(Step(items, worker, p, r))
  {
  }

  lemma StepCoverage<T, R>(items: seq<T>, worker: (T, nat) -> Result<R, string>, limit: nat, p: Pool<R>, r: nat)
    requires Inv(items, worker, limit, p)
    requires r < |p.runners| && p.runners[r].Busy?
    ensures Coverage(Step(items, worker, p, r))
  {
    var idx := p.runners[r].index;
    var q := Step(items, worker, p, r);
    forall i | 0 <= i < |q.out| && i < q.cursor
      ensures q.out[i].Some? || Busy(i) in q.runners
    {
      if i == p.cursor {
        assert q.runners[r] == Busy(i);
      } else if i != idx && q.out[i].None? {
        assert Busy(i) in p.runners;
        var j :| 0 <= j < |p.runners| && p.runners[j] == Busy(i);
        assert j != r && q.runners[j] == Busy(i);
      }
    }
    if Finished in q.runners {
      var j :| 0 <= j < |q.runners| && q.runners[j] == Finished;
      if j != r {
        assert p.runners[j] == Finished;
      }
    }
  }

  lemma StepCompletion<T, R>(items: seq<T>, worker: (T, nat) -> Result<R, string>, limit: nat, p: Pool<R>, r: nat)
    requires Inv(items, worker, limit, p)
    requires r < |p.runners| && p.runners[r].Busy?
    ensures Completion(Step(items, worker, p, r))
  {
    var idx := p.runners[r].index;
    var q := Step(items, worker, p, r);
    var next := if p.cursor < |items| then Busy(p.cursor) else Finished;
    CountBusyUpdate(p.runners, r, next);
    assert idx !in p.order;
    forall i | 0 <= i < |q.out| && q.out[i].Some?
      ensures i in q.order
    {
      if i != idx {
        assert i in p.order;
      }
    }
  }

  lemma StepSerial<T, R>(items: seq<T>, worker: (T, nat) -> Result<R, string>, limit: nat, p: Pool<R>, r: nat)
    requires Inv(items, worker, limit, p) && limit == 1 && Serial(p)
    requires r < |p.runners| && p.runners[r].Busy?
    ensures Serial(Step(items, worker, p, r))
  {
    assert |p.runners| == 1 && r == 0;
    assert CountBusy(p.runners) == 1 by {
      assert p.runners[..0] == [];
    }
  }

  lemma StepMeasure<T, R>(items: seq<T>, worker: (T, nat) -> Result<R, string>, limit: nat, p: Pool<R>, r: nat)
    requires r < |p.runners| && p.runners[r].Busy? && p.runners[r].index < |p.out|
    ensures var q := Step(items, worker, p, r);
      |items| - Min(q.cursor, |items|) + CountBusy(q.runners) + 1 == |items| - Min(p.cursor, |items|) + CountBusy(p.runners)
  {
    var next := if p.cursor < |items| then Busy(p.cursor) else Finished;
    CountBusyUpdate(p.runners, r, next);
  }

  /** One settlement keeps the invariant, and lowers the termination measure by one. */
  lemma StepPreservesInv<T, R>(items: seq<T>, worker: (T, nat) -> Result<R, string>, limit: nat, p: Pool<R>, r: nat)
    requires Inv(items, worker, limit, p)
    requires r < |p.runners| && p.runners[r].Busy?
    ensures Inv(items, worker, limit, Step(items, worker, p, r))
    ensures limit == 1 && Serial(p) ==> Serial(Step(items, worker, p, r))
    ensures var q := Step(items, worker, p, r);
      |items| - Min(q.cursor, |items|) + CountBusy(q.runners) + 1 == |items| - Min(p.cursor, |items|) + CountBusy(p.runners)
  {
    StepBusyClaims(items, worker, limit, p, r);
    StepCoverage(items, worker, limit, p, r);
    StepCompletion(items, worker, limit, p, r);
    StepMeasure(items, worker, limit, p, r);
    if limit == 1 && Serial(p) {
      StepSerial(items, worker, limit, p, r);
    }
  }

  /** Once no runner is in flight (`Promise.all` resolved), `out` has no holes and equals the reference map. */
  lemma FinalOutput<T, R>(items: seq<T>, worker: (T, nat) -> Result<R, string>, limit: nat, p: Pool<R>)
    requires limit >= 1 && Inv(items, worker, limit, p) && CountBusy(p.runners) == 0
    ensures forall i :: 0 <= i < |items| ==> p.out[i] == Some(Catch(worker(items[i], i)))
    ensures |p.order| == |items|
  {
    CountBusyNone(p.runners);
    if |items| > 0 {
      assert p.runners[0] == Finished;
    }
    forall i | 0 <= i < |items|
      ensures p.out[i].Some?
    {
      assert Busy(i) !in p.runners;
    }
  }

  function Unwrap<R>(out: seq<Option<Slot<R>>>): (r: seq<Slot<R>>)
    requires forall i :: 0 <= i < |out| ==> out[i].Some?
    ensures |r| == |out| && forall i :: 0 <= i < |out| ==> out[i] == Some(r[i])
  {
    seq(|out|, i requires 0 <= i < |out| => out[i].value)
  }

  /** `mapLimit` for any interleaving of its runners.  Besides the output it returns the
      order in which results were stored and the largest number of workers observed in flight. */
  method MapLimit<T, R>(items: seq<T>, limit: nat, worker: (T, nat) -> Result<R, string>)
    returns (out: seq<Slot<R>>, order: seq<nat>, peak: nat)
    requires limit >= 1
    ensures |out| == |items|
    ensures forall i :: 0 <= i < |items| ==> out[i] == Catch(worker(items[i], i))
    ensures |order| == |items|
    ensures forall i :: 0 <= i < |items| ==> i in order
    ensures forall k, l :: 0 <= k < l < |order| ==> order[k] != order[l]
    ensures peak == Min(limit, |items|)
    ensures limit == 1 ==> forall k :: 0 <= k < |order| ==> order[k] == k
  {
    var p := Start<R>(|items|, limit);
    StartInv<T, R>(items, worker, limit);
    CountBusyAll(Min(limit, |items|));
    peak := CountBusy(p.runners);
    while CountBusy(p.runners) > 0
      invariant Inv(items, worker, limit, p)
      invariant limit == 1 ==> Serial(p)
      invariant peak == Min(limit, |items|)
      decreases |items| - Min(p.cursor, |items|) + CountBusy(p.runners)
    {
      if forall j :: 0 <= j < |p.runners| ==> !p.runners[j].Busy? {
        CountBusyNoneBusy(p.runners);
      }
      var r :| 0 <= r < |p.runners| && p.runners[r].Busy?;
      StepPreservesInv(items, worker, limit, p, r);
      p := Step(items, worker, p, r);
      peak := Max(peak, CountBusy(p.runners));
    }
    FinalOutput(items, worker, limit, p);
    out := Unwrap(p.out);
    order := p.order;
  }

  lemma {:induction false} CountBusyNoneBusy(rs: seq<Runner>)
    requires forall j :: 0 <= j < |rs| ==> !rs[j].Busy?
    ensures CountBusy(rs) == 0
  {
    if rs != [] {
      CountBusyNoneBusy(rs[..|rs| - 1]);
    }
  }
}

=== FILE: wrappers.dfy ===
/** JavaScript's absent values and thrown errors, as two small datatypes every module imports. */
module Wrappers {

  /** `null`/`undefined` (`None`) or a present value (`Some`). */
  datatype Option<+T> = None | Some(value: T) {

    /** `x ?? fallback`. */
    function GetOr(fallback: T): T {
      if Some? then value else fallback
    }
  }

  /** An awaited call either fulfils with a value or throws; the error is kept as `String(e)`. */
  datatype Result<+R, +E> = Success(value: R) | Failure(error: E)
}
